=== FILE: README.md ===
# Maigret search backend — verified model

A Dafny model of the sequential logic inside the Maigret UI's FastAPI
backend (`backend/main.py`). The server runs username searches with the
Maigret command-line tool and tracks each search in a session that the
browser polls. The model covers four pieces:

- **Command line** (`command.dfy`). The argument list for the Maigret
  subprocess, built from the request's `SearchOptions` and usernames. Its
  partner is `ParseCommand`, an independent reader of such lists. Reading
  back a built command yields exactly what the options convey plus the
  usernames.
- **Progress tracking** (`progress.dfy`). The per-line bookkeeping of
  `totalSites`, `sitesChecked`, `resultsFound`, the current-site label and
  `progress`. A classifier outside the model turns each output line into a
  `LineEvent`. That event says whether the line announced "N sites",
  carried a `checked/total` counter, named a site, or matched a result
  pattern. The clock contributes two things per line: whether the
  half-second refresh fires, and the time-based estimate.
- **Result formatting** (`json.dfy`, `reports.dfy`). Loaded JSON reports
  become per-username result entries. This covers status normalisation,
  the defaults for missing fields, placeholders for missing report files,
  and the exceptions the formatter can raise.
- **Sessions** (`sessions.dfy`). Session creation, the background task
  that moves a session from `pending` through `running` to `completed` or
  `failed`, the states a poller can observe on the way, and the guards of
  the status and results endpoints.

`wrappers.dfy` holds `Option`/`Result`. `decimal.dfy` holds Python's
`str(int)` and its inverse.

Behaviour of the code worth knowing when reading the lemmas:

- `progress` can decrease. A time estimate written by the refresh can be
  followed by a lower parsed percentage (`Progress.ProgressCanRegress`).
- `sitesChecked` is the latest counter read, so it can decrease too
  (`Progress.RunSitesChecked`).
- The formatter gives every username the records of *all* loaded reports,
  concatenated. It does not give each username only its own report
  (`Reports.FormatResults`).

## Model

| member | source | states |
|---|---|---|
| `Decimal.IntToString` | backend/main.py:222-228 | `str(n)` is non-empty, starts with `-` exactly for negative `n`, is otherwise all digits, and has no leading zero (so `0` is the only text starting with `0`, and a negative never starts `-0`) |
| `Decimal.ParseIntToString` | backend/main.py:222-228 | the decimal text of any integer reads back as that integer, so the numeric option arguments are unambiguous |
| `Command.BuildCommand` | backend/main.py:218-259 | the argument list starts `python3 -m maigret.maigret` and ends with `--verbose --json simple` followed by exactly the usernames in request order; its length leaves room for exactly the option arguments in between, whose content `Command.ParseBuildCommand` pins down |
| `Command.SiteArgs` | backend/main.py:233-235 | each listed site gives one `--site <name>` pair, in list order, and nothing else |
| `Command.SplitJoinComma` | backend/main.py:230-231 | the tags travel as one comma-joined argument that splits back into the same tags when no tag holds a comma |
| `Command.ParseBuildCommand` | backend/main.py:218-259 | reading a built command back recovers the timeout (0 = absent), the scope (all sites overrides a non-zero top-sites count), the tags, the sites in order, both switches, the non-empty proxies, and the usernames |
| `Command.BuildCommandInjective` | backend/main.py:218-259 | two requests that convey different options or usernames never produce the same command line |
| `Command.ScopeAndTimeoutFlags` | backend/main.py:222-228 | `--all-sites` appears iff `allSites`; `--top-sites` appears iff not `allSites` and `topSites` is non-zero; the two never appear together; `--timeout` is omitted exactly when the timeout is 0 (for requests whose own strings are not these flags) |
| `Command.SegmentMembers` | backend/main.py:222-259 | a flag word not copied from the request appears in exactly one option segment, and only under its option: `--timeout` for a non-zero timeout, `--all-sites`/`--top-sites` for the scope, `--tags` for a non-empty tag list, the two switches, and each proxy flag for a non-empty proxy |
| `Command.FlagMembers` | backend/main.py:219-259 | a flag word that no request string equals appears in the command exactly when one of the option segments emits it |
| `Command.DefaultCommand` | backend/main.py:31-33 | a request with all options at their defaults runs `--timeout 30 --top-sites 500` and nothing else between the fixed prefix and suffix |
| `Command.IgnoredOptions` | backend/main.py:31-44 | `useCookies`, `withDomains` and `permute` never change the command line |
| `Progress.ParsedProgress` | backend/main.py:360 | a parsed percentage is at most 95, divides by `max(total, 1)`, and is exactly 95 once `checked` reaches that divisor |
| `Progress.Step` | backend/main.py:296-411 | one line: a non-zero total is never rewritten; a newly set total is the line's "N sites" count or counter total; `resultsFound` rises by exactly one iff the line matched a result; `sitesChecked` becomes the line's counter value; progress is capped at 95 or left unchanged; a named site becomes the label; when the half-second refresh fires it publishes the parsed percentage if both counts are non-zero and otherwise the time estimate capped at 90, and republishes the label; without a refresh, a named site becomes both labels, an unnamed line turns an empty or initial label into "Site N" once some site is counted, and otherwise the published label stays, except that a first "N sites" announcement publishes "Starting search..." |
| `Progress.RunProgressBounded` | backend/main.py:291-311 | while output is read, the session's progress never exceeds 95 (parsed values are capped at 95, time estimates at 90) |
| `Progress.RunResultsFound` | backend/main.py:402-408 | after any lines, `resultsFound` is its start value plus the number of lines on which a result pattern matched |
| `Progress.ResultsFoundMonotone` | backend/main.py:402-408 | `resultsFound` never decreases and rises by at most one per line |
| `Progress.StepTotal` | backend/main.py:333-358 | one line sets the total only while it is 0, taking its "N sites" count if non-zero and otherwise its counter total |
| `Sessions.TotalStable` | backend/main.py:333-358 | once the lines read so far have set a non-zero total, reading more lines never changes it |
| `Progress.RunTotalFirstWriteWins` | backend/main.py:333-358 | `totalSites` is written only while it is 0: after any lines it is the first non-zero value offered, or unchanged once non-zero |
| `Progress.RunSitesChecked` | backend/main.py:352-361 | `sitesChecked` is the `checked` value of the most recent counter line |
| `Progress.ProgressCanRegress` | backend/main.py:296-304 | a refresh estimate of 50 followed by a counter line `1/100` lowers the published progress from 50 to 1 |
| `Json.Str` | backend/main.py:468 | `str()` of a loaded value: a string is itself; `None`, booleans and integers give Python's text; lists and dicts give text starting with `[` or `{` |
| `Json.GetOr` | backend/main.py:473-477 | `dict.get(key, default)` gives the stored value when the key is present and the default otherwise |
| `Reports.NormalizeStatus` | backend/main.py:469 | the result is `Claimed` iff the raw status lower-cases to `claimed`, and `Unclaimed` iff it lower-cases to `unclaimed`; any other status passes through unchanged |
| `Reports.NormalizeIdempotent` | backend/main.py:469 | normalising a status twice gives the same as normalising it once |
| `Reports.RawStatus` | backend/main.py:466-468 | a dict status yields its inner `status` string, or `unknown` if that key is absent; any other status is stringified; the only failure is a dict whose inner status is not a string, where `.lower()` raises |
| `Reports.NonStringStatusUnchanged` | backend/main.py:466-469 | a status that is neither a dict nor a string is stringified and never becomes `Claimed`/`Unclaimed` |
| `Reports.MakeRecord` | backend/main.py:465-478 | a site entry converts exactly when its raw status can be read |
| `Reports.MakeRecordFields` | backend/main.py:465-478 | a converted record is named by the entry's key, carries the normalised raw status, and carries the stored `url_main`, `url_user`, `tags` and `metadata` when present, else `""`, `""`, `[]` and `{}` |
| `Reports.RecordsOfOk` | backend/main.py:464-480 | a report dict converts without error exactly when every dict entry carrying a `status` key has a readable status |
| `Reports.RecordsOfEntries` | backend/main.py:464-480 | a converted report has one record per dict entry carrying a `status` key, in key order; other entries contribute nothing |
| `Reports.AllRecords` | backend/main.py:460-480 | collecting over all loaded reports succeeds iff every report converts |
| `Reports.AllRecordsSingle` | backend/main.py:460-480 | collecting over one report gives exactly that report's own records |
| `Reports.AllRecordsAppend` | backend/main.py:460-480 | collecting over two runs of reports succeeds iff both do, and yields the first run's records followed by the second's, so the shared list is the concatenation of every report's records in load order |
| `Reports.PlaceholderHasNoRecords` | backend/main.py:442-445 | the placeholder written for a missing report file contributes no site records |
| `Reports.LoadOne` | backend/main.py:436-445 | one username's report loads iff its file is absent or decodes to a value with a length; it is then the placeholder or the parsed value; an undecodable file fails with its parse error, a scalar report with a processing error |
| `Reports.LoadReports` | backend/main.py:429-445 | reports are read per username in request order; a missing file gives the placeholder; an existing file gives its parsed content; loading succeeds exactly when every existing file decodes to a value that has a length, so an undecodable file or a `None`/boolean/integer report stops the reading |
| `Reports.FormatResults` | backend/main.py:450-483 | exactly one entry per username, in request order, each carrying the same concatenated records of all loaded reports; it fails iff some report's status cannot be read |
| `Reports.ProcessReports` | backend/main.py:427-483 | a successful result list has one entry per username in order, all with the same sites; an undecodable report file or a `None`/boolean/integer report always fails it |
| `Reports.NoReportsGiveEmptyResults` | backend/main.py:429-483 | with no report files, every username still gets an entry, in order, with no sites |
| `Reports.RecordsNormalised` | backend/main.py:466-479 | every status in a converted report is already in normalised form |
| `Sessions.StartSearch` | backend/main.py:171-194 | a new session is stored under the fresh id with status `pending`, progress 0 and no results; other sessions are untouched |
| `Sessions.GetSearchStatus` | backend/main.py:525-544 | 404 exactly for an unknown id; otherwise the session's status and progress, with missing counters read as 0 and a missing site as none |
| `Sessions.GetSearchResults` | backend/main.py:546-557 | results are returned exactly for a known id whose status is `completed`; an unknown id gives 404, any other status 400 |
| `Sessions.NewSessionViews` | backend/main.py:174-182 | a just-created session reads as pending with zero counters and no site, and its results are refused with 400 |
| `Sessions.BeginRun` | backend/main.py:201-215 | the task marks the session running and publishes the tracker's starting state (progress 1, zeroed counters) |
| `Sessions.FinishStream` | backend/main.py:416-420 | after the output ends, a running session below 95 is raised to 95 with the label "Processing results..."; any other session is unchanged |
| `Sessions.Conclude` | backend/main.py:422-507 | after exit, the session completes (progress 100, formatted results, completion time) iff the return code is 0 and formatting succeeds; otherwise it fails and keeps its progress, recording "Maigret search failed with return code: N" for a non-zero code, or "Failed to parse results: …" for an undecodable report file and "Failed to process results: …" for any other processing error |
| `Sessions.PerformSearch` | backend/main.py:198-523 | the task always ends `completed` or `failed`; it completes iff the process exited with 0 and the reports format; completion sets progress 100 and one result per username in order; failure keeps progress at most 95 and records "Search timed out" for the watchdog, the exception's text for a raised exception, or the return-code message for a non-zero exit |
| `Sessions.ObservedLifecycle` | backend/main.py:174-507 | along the states the session holds after each group of the task's writes (the new session, the opening state, each line's state, the 95% bump and the end), a new session goes pending, then running, then one terminal status; progress stays at or below 95 until the end and is 100 at the end iff the search completed |
| `Sessions.LiveCountersMonotone` | backend/main.py:333-408 | while output is read, pollers never see `resultsFound` decrease or rise by more than one per line, and never see a non-zero `totalSites` change |
| `Sessions.ResultsAfterSearch` | backend/main.py:485-557 | after the task, the results endpoint answers iff the search completed, and with 400 otherwise |

## Left out

- FastAPI setup, CORS and response wrapping (backend/main.py:15-24, 50-54). This is framework plumbing. Endpoint answers are modelled as `Result` values with the HTTP code.
- Session persistence to `search_sessions.json` (backend/main.py:60-85) and the reading of report files (backend/main.py:436-441). This is file I/O. Report files are a parameter (`map<string, ReportFile>`) that holds the parsed JSON or the decoder's complaint.
- Launching the subprocess, reading its output and waiting for it (backend/main.py:264-276, 322-324, 414). This is OS process I/O. A `TaskRun` gives the classified lines and how the process ended.
- The regular expressions (backend/main.py:332-408). They are replaced by the `LineEvent` classification of each line.
- Progress.ParsedProgress: it computes `checked * 100 / max(total, 1)` with integer division. The source computes it in floating point, which can differ by one, so contracts state only the cap and bounds.
- The watchdog and the time-based estimate (backend/main.py:286-320). They read `time.time()`. Each line instead says whether the half-second refresh fires and what the estimate is. The watchdog is the `TimedOut` ending. The watchdog's limit is `2 * timeout` seconds, so a timeout of 0 (for which the command omits `--timeout`) makes the search time out almost at once. This is not modelled because the clock is out of scope.
- Sessions.PerformSearch: "always ends completed or failed" covers runs that end. The watchdog is checked only between output lines (backend/main.py:312-322), so a Maigret process that neither prints nor exits blocks `readline` and leaves the session `running` indefinitely. A `TaskRun` always has an ending, so that run is not represented.
- Sessions.Observed: the trace holds the state after each group of writes, not every intermediate write. It leaves out the brief running state with progress 0 and label "Initializing..." (backend/main.py:202-208) and the partial states within one line's handling (for example between backend/main.py:336-338 and 360-362). Each of these is overwritten before the task next yields.
- The exact exception texts of the search task's outer handler (backend/main.py:515-523). These are carried as the `Raised(message)` ending.
- Task scheduling with `asyncio` and the mock search (backend/main.py:187-192, 581-625). These are concurrency and timing. The model treats the task as running to completion after the session is stored. The read loop makes no suspending call, so a poller in the same event loop may see only some of the states `Sessions.Observed` lists. The lemmas cover all of those states.
- The health, sites, tags, export and download endpoints (backend/main.py:89-165, 559-579). They hold no logic beyond constant payloads.
- Session ids and timestamps: the uuid and the clock readings are parameters.
- JSON numbers with a fraction part, and repeated keys within one object, are not represented. The loader collapses repeated keys before the formatter sees them. `repr` of strings nested in a list or dict status is written without Python's escaping.
- The `extractedData` and `networkGraph` fields of each result entry are always empty, so they are not represented.
- `str.lower()` is modelled on ASCII letters only. No other character lower-cases to a single letter of `claimed`/`unclaimed` (a character such as `İ` lower-cases to two characters, which lengthens the text), so the normalisation comparison is unaffected.

=== FILE: command.dfy ===
/** The Maigret command line that the search task launches, built from the
    request's options and usernames (backend/main.py, perform_maigret_search).

    The partner of the builder is `ParseCommand`, an independent reader of
    that argument list: reading back a built command recovers exactly what
    the options can influence (`View`) and the usernames. */
module Command {
  import opened Wrappers
  import opened Decimal

  /** The request's option bag, with the same fields and defaults. */
  datatype SearchOptions = SearchOptions(
    topSites: int,
    timeout: int,
    useCookies: bool,
    allSites: bool,
    disableRecursiveSearch: bool,
    disableExtracting: bool,
    withDomains: bool,
    proxy: Option<string>,
    torProxy: Option<string>,
    i2pProxy: Option<string>,
    permute: bool,
    tags: seq<string>,
    siteList: seq<string>)

  function DefaultOptions(): SearchOptions {
    SearchOptions(500, 30, false, false, false, false, false, None, None, None, false, [], [])
  }

  const Prefix: seq<string> := ["python3", "-m", "maigret.maigret"]
  const Suffix: seq<string> := ["--verbose", "--json", "simple"]

  /** Python truthiness of an optional string: present and non-empty. */
  predicate Truthy(p: Option<string>) {
    p.Some? && p.value != ""
  }

  /** `",".join(tags)`. */
  function JoinComma(tags: seq<string>): (s: string)
    requires |tags| >= 1
    ensures |tags| == 1 ==> s == tags[0]
    decreases |tags|
  {
    if |tags| == 1 then tags[0] else tags[0] + "," + JoinComma(tags[1..])
  }

  /** `s.split(",")`: never empty; `""` splits into `[""]`. */
  function SplitComma(s: string): (parts: seq<string>)
    ensures |parts| >= 1
    decreases |s|
  {
    if |s| == 0 then [""]
    else if s[0] == ',' then [""] + SplitComma(s[1..])
    else
      var rest := SplitComma(s[1..]);
      [[s[0]] + rest[0]] + rest[1..]
  }

  function TimeoutArgs(o: SearchOptions): seq<string> {
    if o.timeout != 0 then ["--timeout", IntToString(o.timeout)] else []
  }

  function ScopeArgs(o: SearchOptions): seq<string> {
    if o.allSites then ["--all-sites"]
    else if o.topSites != 0 then ["--top-sites", IntToString(o.topSites)]
    else []
  }

  function TagArgs(o: SearchOptions): seq<string> {
    if |o.tags| > 0 then ["--tags", JoinComma(o.tags)] else []
  }

  /** One `--site <name>` pair per listed site, in list order. */
  function SiteArgs(sites: seq<string>): (args: seq<string>)
    ensures |args| == 2 * |sites|
    ensures forall i :: 0 <= i < |sites| ==> args[2 * i] == "--site" && args[2 * i + 1] == sites[i]
    decreases |sites|
  {
    if |sites| == 0 then []
    else
      var rest := SiteArgs(sites[1..]);
      var args := ["--site", sites[0]] + rest;
      assert forall i :: 0 <= i < |sites| ==> args[2 * i] == "--site" && args[2 * i + 1] == sites[i] by {
        forall i | 1 <= i < |sites|
          ensures args[2 * i] == "--site" && args[2 * i + 1] == sites[i]
        {
          assert args[2 * i] == rest[2 * (i - 1)];
          assert args[2 * i + 1] == rest[2 * (i - 1) + 1];
          assert sites[1..][i - 1] == sites[i];
        }
      }
      args
  }

  function SwitchArgs(o: SearchOptions): seq<string> {
    (if o.disableRecursiveSearch then ["--no-recursion"] else [])
    + (if o.disableExtracting then ["--no-extracting"] else [])
  }

  function ProxyArg(flag: string, p: Option<string>): seq<string> {
    if Truthy(p) then [flag, p.value] else []
  }

  function ProxyArgs(o: SearchOptions): seq<string> {
    ProxyArg("--proxy", o.proxy) + ProxyArg("--tor-proxy", o.torProxy) + ProxyArg("--i2p-proxy", o.i2pProxy)
  }

  /** Every option-dependent argument, in the order the builder appends them. */
  function OptionArgs(o: SearchOptions): seq<string> {
    TimeoutArgs(o) + ScopeArgs(o) + TagArgs(o) + SiteArgs(o.siteList) + SwitchArgs(o) + ProxyArgs(o)
  }

  /** The argument vector handed to the subprocess. */
  function BuildCommand(o: SearchOptions, usernames: seq<string>): (argv: seq<string>)
    ensures |argv| == 6 + |OptionArgs(o)| + |usernames|
    ensures argv[..3] == Prefix
    ensures argv[|argv| - |usernames| - 3 .. |argv| - |usernames|] == Suffix
    ensures argv[|argv| - |usernames|..] == usernames
  {
    var argv := Prefix + OptionArgs(o) + Suffix + usernames;
    assert argv[..3] == Prefix;
    assert argv[|argv| - |usernames| - 3 .. |argv| - |usernames|] == Suffix;
    assert argv[|argv| - |usernames|..] == usernames;
    argv
  }

  // ---------------------------------------------------------------------
  // What the argument list conveys, and an independent reader for it.

  datatype Scope = AllSites | TopSites(count: int) | DefaultScope

  /** The part of the options that can reach the command line. */
  datatype CommandView = CommandView(
    timeout: int,
    scope: Scope,
    tags: seq<string>,
    sites: seq<string>,
    noRecursion: bool,
    noExtracting: bool,
    proxy: Option<string>,
    torProxy: Option<string>,
    i2pProxy: Option<string>)

  datatype Invocation = Invocation(view: CommandView, usernames: seq<string>)

  function EmptyView(): CommandView {
    CommandView(0, DefaultScope, [], [], false, false, None, None, None)
  }

  function TruthyOrNone(p: Option<string>): Option<string> {
    if Truthy(p) then p else None
  }

  /** What `o` should be read back as: a zero timeout or top-sites count is
      the same as leaving it out, `allSites` overrides `topSites`, and an
      empty proxy string is the same as no proxy. */
  function View(o: SearchOptions): CommandView {
    CommandView(
      o.timeout,
      if o.allSites then AllSites else if o.topSites != 0 then TopSites(o.topSites) else DefaultScope,
      o.tags,
      o.siteList,
      o.disableRecursiveSearch,
      o.disableExtracting,
      TruthyOrNone(o.proxy),
      TruthyOrNone(o.torProxy),
      TruthyOrNone(o.i2pProxy))
  }

  /** Reads an argument vector: the fixed prefix, then flags (each valued
      flag takes the next argument) until `--verbose`, then `--json simple`,
      then every remaining argument is a username. */
  function ParseCommand(argv: seq<string>): Option<Invocation> {
    if |argv| < 3 || argv[..3] != Prefix then None else ParseOptions(argv[3..], EmptyView())
  }

  function ParseOptions(args: seq<string>, v: CommandView): Option<Invocation>
    decreases |args|
  {
    if |args| == 0 then None
    else if args[0] == "--verbose" then
      if |args| >= 3 && args[1] == "--json" && args[2] == "simple" then Some(Invocation(v, args[3..])) else None
    else if args[0] == "--all-sites" then ParseOptions(args[1..], v.(scope := AllSites))
    else if args[0] == "--no-recursion" then ParseOptions(args[1..], v.(noRecursion := true))
    else if args[0] == "--no-extracting" then ParseOptions(args[1..], v.(noExtracting := true))
    else if |args| < 2 then None
    else if args[0] == "--timeout" then
      match ParseInt(args[1])
      case None => None
      case Some(t) => ParseOptions(args[2..], v.(timeout := t))
    else if args[0] == "--top-sites" then
      match ParseInt(args[1])
      case None => None
      case Some(n) => ParseOptions(args[2..], v.(scope := TopSites(n)))
    else if args[0] == "--tags" then ParseOptions(args[2..], v.(tags := SplitComma(args[1])))
    else if args[0] == "--site" then ParseOptions(args[2..], v.(sites := v.sites + [args[1]]))
    else if args[0] == "--proxy" then ParseOptions(args[2..], v.(proxy := Some(args[1])))
    else if args[0] == "--tor-proxy" then ParseOptions(args[2..], v.(torProxy := Some(args[1])))
    else if args[0] == "--i2p-proxy" then ParseOptions(args[2..], v.(i2pProxy := Some(args[1])))
    else None
  }

  // ---------------------------------------------------------------------
  // Tags: joining then splitting on commas gives the list back.

  predicate CommaFree(s: string) {
    forall i :: 0 <= i < |s| ==> s[i] != ','
  }

  lemma {:induction false} SplitCommaFree(a: string)
    requires CommaFree(a)
    ensures SplitComma(a) == [a]
    decreases |a|
  {
    if |a| > 0 {
      SplitCommaFree(a[1..]);
      assert [a[0]] + a[1..] == a;
    }
  }

  lemma {:induction false} SplitAfterCommaFree(a: string, rest: string)
    requires CommaFree(a)
    ensures SplitComma(a + "," + rest) == [a] + SplitComma(rest)
    decreases |a|
  {
    var s := a + "," + rest;
    if |a| == 0 {
      assert s[0] == ',' && s[1..] == rest;
    } else {
      assert s[0] == a[0];
      assert s[1..] == a[1..] + "," + rest;
      SplitAfterCommaFree(a[1..], rest);
      assert [a[0]] + a[1..] == a;
    }
  }

  /** `",".join(tags).split(",") == tags` when no tag holds a comma. */
  lemma {:induction false} SplitJoinComma(tags: seq<string>)
    requires |tags| >= 1
    requires forall i :: 0 <= i < |tags| ==> CommaFree(tags[i])
    ensures SplitComma(JoinComma(tags)) == tags
    decreases |tags|
  {
    if |tags| == 1 {
      SplitCommaFree(tags[0]);
    } else {
      SplitJoinComma(tags[1..]);
      SplitAfterCommaFree(tags[0], JoinComma(tags[1..]));
      assert [tags[0]] + tags[1..] == tags;
    }
  }

  // ---------------------------------------------------------------------
  // Reading back each segment of the built command.

  lemma ParseTimeoutArgs(o: SearchOptions, rest: seq<string>, v: CommandView)
    ensures ParseOptions(TimeoutArgs(o) + rest, v)
         == ParseOptions(rest, if o.timeout != 0 then v.(timeout := o.timeout) else v)
  {
    if o.timeout != 0 {
      var args := TimeoutArgs(o) + rest;
      assert args[0] == "--timeout" && args[1] == IntToString(o.timeout) && args[2..] == rest;
      ParseIntToString(o.timeout);
    } else {
      assert TimeoutArgs(o) + rest == rest;
    }
  }

  lemma ParseScopeArgs(o: SearchOptions, rest: seq<string>, v: CommandView)
    ensures ParseOptions(ScopeArgs(o) + rest, v)
         == ParseOptions(rest, if o.allSites || o.topSites != 0 then v.(scope := View(o).scope) else v)
  {
    var args := ScopeArgs(o) + rest;
    if o.allSites {
      assert args[0] == "--all-sites" && args[1..] == rest;
    } else if o.topSites != 0 {
      assert args[0] == "--top-sites" && args[1] == IntToString(o.topSites) && args[2..] == rest;
      ParseIntToString(o.topSites);
    } else {
      assert args == rest;
    }
  }

  lemma ParseTagArgs(o: SearchOptions, rest: seq<string>, v: CommandView)
    requires forall i :: 0 <= i < |o.tags| ==> CommaFree(o.tags[i])
    ensures ParseOptions(TagArgs(o) + rest, v)
         == ParseOptions(rest, if |o.tags| > 0 then v.(tags := o.tags) else v)
  {
    var args := TagArgs(o) + rest;
    if |o.tags| > 0 {
      assert args[0] == "--tags" && args[1] == JoinComma(o.tags) && args[2..] == rest;
      SplitJoinComma(o.tags);
    } else {
      assert args == rest;
    }
  }

  lemma ParseSitePair(x: string, rest: seq<string>, v: CommandView)
    ensures ParseOptions(["--site", x] + rest, v) == ParseOptions(rest, v.(sites := v.sites + [x]))
  {
    var args := ["--site", x] + rest;
    assert args[0] == "--site" && args[1] == x && args[2..] == rest;
  }

  lemma {:induction false} ParseSiteArgs(sites: seq<string>, rest: seq<string>, v: CommandView)
    ensures ParseOptions(SiteArgs(sites) + rest, v) == ParseOptions(rest, v.(sites := v.sites + sites))
    decreases |sites|
  {
    if |sites| == 0 {
      assert SiteArgs(sites) + rest == rest;
      assert v.sites + sites == v.sites;
    } else {
      assert SiteArgs(sites) + rest == ["--site", sites[0]] + (SiteArgs(sites[1..]) + rest);
      ParseSitePair(sites[0], SiteArgs(sites[1..]) + rest, v);
      ParseSiteArgs(sites[1..], rest, v.(sites := v.sites + [sites[0]]));
      assert v.sites + [sites[0]] + sites[1..] == v.sites + sites;
    }
  }

  lemma ParseSwitchArgs(o: SearchOptions, rest: seq<string>, v: CommandView)
    ensures ParseOptions(SwitchArgs(o) + rest, v)
         == ParseOptions(rest, v.(noRecursion := v.noRecursion || o.disableRecursiveSearch,
                                  noExtracting := v.noExtracting || o.disableExtracting))
  {
    var extracting := if o.disableExtracting then ["--no-extracting"] else [];
    var v1 := v.(noRecursion := v.noRecursion || o.disableRecursiveSearch);
    if o.disableRecursiveSearch {
      var args := SwitchArgs(o) + rest;
      assert args[0] == "--no-recursion" && args[1..] == extracting + rest;
    } else {
      assert SwitchArgs(o) + rest == extracting + rest;
    }
    if o.disableExtracting {
      assert (extracting + rest)[0] == "--no-extracting" && (extracting + rest)[1..] == rest;
    } else {
      assert extracting + rest == rest;
    }
  }

  lemma ParseProxyArg(flag: string, p: Option<string>, rest: seq<string>, v: CommandView)
    requires flag in {"--proxy", "--tor-proxy", "--i2p-proxy"}
    ensures ParseOptions(ProxyArg(flag, p) + rest, v)
         == ParseOptions(rest,
              if !Truthy(p) then v
              else if flag == "--proxy" then v.(proxy := p)
              else if flag == "--tor-proxy" then v.(torProxy := p)
              else v.(i2pProxy := p))
  {
    if Truthy(p) {
      var args := ProxyArg(flag, p) + rest;
      assert args[0] == flag && args[1] == p.value && args[2..] == rest;
    } else {
      assert ProxyArg(flag, p) + rest == rest;
    }
  }

  lemma ParseProxyArgs(o: SearchOptions, rest: seq<string>, v: CommandView)
    ensures ParseOptions(ProxyArgs(o) + rest, v)
         == ParseOptions(rest, v.(proxy := if Truthy(o.proxy) then o.proxy else v.proxy,
                                  torProxy := if Truthy(o.torProxy) then o.torProxy else v.torProxy,
                                  i2pProxy := if Truthy(o.i2pProxy) then o.i2pProxy else v.i2pProxy))
  {
    var p3 := ProxyArg("--i2p-proxy", o.i2pProxy) + rest;
    var p2 := ProxyArg("--tor-proxy", o.torProxy) + p3;
    assert ProxyArgs(o) + rest == ProxyArg("--proxy", o.proxy) + p2;
    var v1 := if Truthy(o.proxy) then v.(proxy := o.proxy) else v;
    var v2 := if Truthy(o.torProxy) then v1.(torProxy := o.torProxy) else v1;
    ParseProxyArg("--proxy", o.proxy, p2, v);
    ParseProxyArg("--tor-proxy", o.torProxy, p3, v1);
    ParseProxyArg("--i2p-proxy", o.i2pProxy, rest, v2);
  }

  /** The first three option segments: timeout, scope and tags. */
  lemma ParseLeadingArgs(o: SearchOptions, rest: seq<string>)
    requires forall i :: 0 <= i < |o.tags| ==> CommaFree(o.tags[i])
    ensures ParseOptions(TimeoutArgs(o) + ScopeArgs(o) + TagArgs(o) + rest, EmptyView())
         == ParseOptions(rest, EmptyView().(timeout := o.timeout, scope := View(o).scope, tags := o.tags))
  {
    var r3 := TagArgs(o) + rest;
    var r2 := ScopeArgs(o) + r3;
    assert TimeoutArgs(o) + ScopeArgs(o) + TagArgs(o) + rest == TimeoutArgs(o) + r2;
    var v0 := EmptyView();
    var v1 := if o.timeout != 0 then v0.(timeout := o.timeout) else v0;
    var v2 := if o.allSites || o.topSites != 0 then v1.(scope := View(o).scope) else v1;
    calc {
      ParseOptions(TimeoutArgs(o) + r2, v0);
      { ParseTimeoutArgs(o, r2, v0); }
      ParseOptions(r2, v1);
      { ParseScopeArgs(o, r3, v1); }
      ParseOptions(r3, v2);
      { ParseTagArgs(o, rest, v2); }
      ParseOptions(rest, if |o.tags| > 0 then v2.(tags := o.tags) else v2);
    }
  }

  /** The view after the trailing segments, stated field by field. */
  function TrailingView(o: SearchOptions, v: CommandView): CommandView {
    v.(sites := o.siteList,
       noRecursion := o.disableRecursiveSearch,
       noExtracting := o.disableExtracting,
       proxy := TruthyOrNone(o.proxy),
       torProxy := TruthyOrNone(o.torProxy),
       i2pProxy := TruthyOrNone(o.i2pProxy))
  }

  /** Sites, then switches: the view after both segments. */
  lemma ParseSitesAndSwitches(o: SearchOptions, rest: seq<string>, v: CommandView)
    requires v.sites == [] && !v.noRecursion && !v.noExtracting
    ensures ParseOptions(SiteArgs(o.siteList) + (SwitchArgs(o) + rest), v)
         == ParseOptions(rest, v.(sites := o.siteList,
                                  noRecursion := o.disableRecursiveSearch,
                                  noExtracting := o.disableExtracting))
  {
    var v4 := v.(sites := v.sites + o.siteList);
    assert v.sites + o.siteList == o.siteList;
    ParseSiteArgs(o.siteList, SwitchArgs(o) + rest, v);
    ParseSwitchArgs(o, rest, v4);
  }

  /** The remaining option segments: sites, switches and proxies. */
  lemma ParseTrailingArgs(o: SearchOptions, rest: seq<string>, v: CommandView)
    requires v.sites == [] && !v.noRecursion && !v.noExtracting
    requires v.proxy == None && v.torProxy == None && v.i2pProxy == None
    ensures ParseOptions(SiteArgs(o.siteList) + SwitchArgs(o) + ProxyArgs(o) + rest, v)
         == ParseOptions(rest, TrailingView(o, v))
  {
    var r6 := ProxyArgs(o) + rest;
    assert SiteArgs(o.siteList) + SwitchArgs(o) + ProxyArgs(o) + rest == SiteArgs(o.siteList) + (SwitchArgs(o) + r6);
    var v5 := v.(sites := o.siteList,
                 noRecursion := o.disableRecursiveSearch,
                 noExtracting := o.disableExtracting);
    var v6 := v5.(proxy := if Truthy(o.proxy) then o.proxy else v5.proxy,
                  torProxy := if Truthy(o.torProxy) then o.torProxy else v5.torProxy,
                  i2pProxy := if Truthy(o.i2pProxy) then o.i2pProxy else v5.i2pProxy);
    assert v6 == TrailingView(o, v);
    ParseSitesAndSwitches(o, r6, v);
    ParseProxyArgs(o, rest, v5);
  }

  lemma ParseSuffix(usernames: seq<string>, v: CommandView)
    ensures ParseOptions(Suffix + usernames, v) == Some(Invocation(v, usernames))
  {
    var args := Suffix + usernames;
    assert args[0] == "--verbose" && args[1] == "--json" && args[2] == "simple";
    assert args[3..] == usernames;
  }

  lemma RegroupSegments<T>(a: seq<T>, b: seq<T>, c: seq<T>, d: seq<T>, e: seq<T>, f: seq<T>, t: seq<T>)
    ensures a + b + c + d + e + f + t == a + b + c + (d + e + f + t)
  {
  }

  /** The built command, grouped as the reader consumes it. */
  lemma BuildCommandSegments(o: SearchOptions, usernames: seq<string>)
    ensures BuildCommand(o, usernames)
         == Prefix + (TimeoutArgs(o) + ScopeArgs(o) + TagArgs(o)
                      + (SiteArgs(o.siteList) + SwitchArgs(o) + ProxyArgs(o) + (Suffix + usernames)))
  {
    var tail := Suffix + usernames;
    RegroupSegments(TimeoutArgs(o), ScopeArgs(o), TagArgs(o), SiteArgs(o.siteList), SwitchArgs(o), ProxyArgs(o), tail);
    assert BuildCommand(o, usernames) == Prefix + (OptionArgs(o) + tail);
  }

  lemma ParseAfterPrefix(rest: seq<string>)
    ensures ParseCommand(Prefix + rest) == ParseOptions(rest, EmptyView())
  {
    assert (Prefix + rest)[..3] == Prefix && (Prefix + rest)[3..] == rest;
  }

  /** Reading back a built command recovers what the options convey and
      the usernames, in request order (provided no tag holds a comma, since
      the tags travel as one comma-joined argument). */
  lemma ParseBuildCommand(o: SearchOptions, usernames: seq<string>)
    requires forall i :: 0 <= i < |o.tags| ==> CommaFree(o.tags[i])
    ensures ParseCommand(BuildCommand(o, usernames)) == Some(Invocation(View(o), usernames))
  {
    var tail := Suffix + usernames;
    var trailing := SiteArgs(o.siteList) + SwitchArgs(o) + ProxyArgs(o) + tail;
    var v3 := EmptyView().(timeout := o.timeout, scope := View(o).scope, tags := o.tags);
    assert TrailingView(o, v3) == View(o);
    BuildCommandSegments(o, usernames);
    calc {
      ParseCommand(BuildCommand(o, usernames));
      ParseCommand(Prefix + (TimeoutArgs(o) + ScopeArgs(o) + TagArgs(o) + trailing));
      { ParseAfterPrefix(TimeoutArgs(o) + ScopeArgs(o) + TagArgs(o) + trailing); }
      ParseOptions(TimeoutArgs(o) + ScopeArgs(o) + TagArgs(o) + trailing, EmptyView());
      { ParseLeadingArgs(o, trailing); }
      ParseOptions(trailing, v3);
      { ParseTrailingArgs(o, tail, v3); }
      ParseOptions(tail, TrailingView(o, v3));
      ParseOptions(tail, View(o));
      { ParseSuffix(usernames, View(o)); }
      Some(Invocation(View(o), usernames));
    }
  }

  /** Distinct usernames lists, or options that differ in what they convey,
      always give distinct command lines. */
  lemma BuildCommandInjective(o1: SearchOptions, u1: seq<string>, o2: SearchOptions, u2: seq<string>)
    requires forall i :: 0 <= i < |o1.tags| ==> CommaFree(o1.tags[i])
    requires forall i :: 0 <= i < |o2.tags| ==> CommaFree(o2.tags[i])
    requires BuildCommand(o1, u1) == BuildCommand(o2, u2)
    ensures u1 == u2 && View(o1) == View(o2)
  {
    ParseBuildCommand(o1, u1);
    ParseBuildCommand(o2, u2);
  }

  // ---------------------------------------------------------------------
  // Which flags appear.

  /** The arguments copied verbatim from the request. */
  function FreeText(o: SearchOptions, usernames: seq<string>): seq<string> {
    (if |o.tags| > 0 then [JoinComma(o.tags)] else [])
    + o.siteList
    + (if Truthy(o.proxy) then [o.proxy.value] else [])
    + (if Truthy(o.torProxy) then [o.torProxy.value] else [])
    + (if Truthy(o.i2pProxy) then [o.i2pProxy.value] else [])
    + usernames
  }

  lemma {:induction false} SiteArgsMembers(sites: seq<string>, x: string)
    ensures x in SiteArgs(sites) <==> (|sites| > 0 && x == "--site") || x in sites
    decreases |sites|
  {
    if |sites| > 0 {
      SiteArgsMembers(sites[1..], x);
      assert sites == [sites[0]] + sites[1..];
    }
  }

  /** A flag word (two dashes and a letter) is never the decimal text of a number. */
  lemma NotNumeral(flag: string, n: int)
    requires |flag| >= 2 && flag[1] == '-'
    ensures IntToString(n) != flag
  {
  }

  lemma FreeTextMembers(o: SearchOptions, usernames: seq<string>, flag: string)
    requires flag !in FreeText(o, usernames)
    ensures flag !in o.siteList && flag !in usernames
    ensures |o.tags| > 0 ==> flag != JoinComma(o.tags)
    ensures Truthy(o.proxy) ==> flag != o.proxy.value
    ensures Truthy(o.torProxy) ==> flag != o.torProxy.value
    ensures Truthy(o.i2pProxy) ==> flag != o.i2pProxy.value
  {
  }

  /** A flag the request cannot smuggle in appears exactly when the
      builder emits it. */
  lemma FlagMembers(o: SearchOptions, usernames: seq<string>, flag: string)
    requires |flag| >= 2 && flag[1] == '-'
    requires flag !in FreeText(o, usernames)
    requires flag !in Prefix && flag !in Suffix && flag != "--site"
    ensures flag in BuildCommand(o, usernames)
        <==> flag in TimeoutArgs(o) + ScopeArgs(o) + TagArgs(o) + SwitchArgs(o) + ProxyArgs(o)
  {
    var argv := BuildCommand(o, usernames);
    FreeTextMembers(o, usernames, flag);
    SiteArgsMembers(o.siteList, flag);
    NotNumeral(flag, o.timeout);
    NotNumeral(flag, o.topSites);
    assert argv == Prefix + OptionArgs(o) + Suffix + usernames;
    assert flag in argv <==> flag in OptionArgs(o);
    assert flag !in SiteArgs(o.siteList);
  }

  /** Membership in the option segments, one segment at a time. */
  lemma InSegments(x: string, a: seq<string>, b: seq<string>, c: seq<string>, d: seq<string>, e: seq<string>)
    ensures x in a + b + c + d + e <==> x in a || x in b || x in c || x in d || x in e
  {
  }

  /** Which option segment holds a flag word that is not copied from the
      request. */
  lemma SegmentMembers(o: SearchOptions, flag: string)
    requires |flag| >= 2 && flag[1] == '-'
    requires |o.tags| > 0 ==> flag != JoinComma(o.tags)
    requires Truthy(o.proxy) ==> flag != o.proxy.value
    requires Truthy(o.torProxy) ==> flag != o.torProxy.value
    requires Truthy(o.i2pProxy) ==> flag != o.i2pProxy.value
    ensures flag in TimeoutArgs(o) <==> flag == "--timeout" && o.timeout != 0
    ensures flag in ScopeArgs(o)
        <==> (flag == "--all-sites" && o.allSites)
             || (flag == "--top-sites" && !o.allSites && o.topSites != 0)
    ensures flag in TagArgs(o) <==> flag == "--tags" && |o.tags| > 0
    ensures flag in SwitchArgs(o)
        <==> (flag == "--no-recursion" && o.disableRecursiveSearch)
             || (flag == "--no-extracting" && o.disableExtracting)
    ensures flag in ProxyArgs(o)
        <==> (flag == "--proxy" && Truthy(o.proxy))
             || (flag == "--tor-proxy" && Truthy(o.torProxy))
             || (flag == "--i2p-proxy" && Truthy(o.i2pProxy))
  {
    NotNumeral(flag, o.timeout);
    NotNumeral(flag, o.topSites);
  }

  /** The command's flags, read through its option segments. */
  lemma FlagBySegment(o: SearchOptions, usernames: seq<string>, flag: string)
    requires |flag| >= 2 && flag[1] == '-'
    requires flag !in FreeText(o, usernames)
    requires flag !in Prefix && flag !in Suffix && flag != "--site"
    ensures flag in BuildCommand(o, usernames)
        <==> flag in TimeoutArgs(o) || flag in ScopeArgs(o) || flag in TagArgs(o)
             || flag in SwitchArgs(o) || flag in ProxyArgs(o)
  {
    FlagMembers(o, usernames, flag);
    InSegments(flag, TimeoutArgs(o), ScopeArgs(o), TagArgs(o), SwitchArgs(o), ProxyArgs(o));
  }

  lemma AllSitesFlag(o: SearchOptions, usernames: seq<string>)
    requires "--all-sites" !in FreeText(o, usernames)
    ensures "--all-sites" in BuildCommand(o, usernames) <==> o.allSites
  {
    FlagBySegment(o, usernames, "--all-sites");
    FreeTextMembers(o, usernames, "--all-sites");
    SegmentMembers(o, "--all-sites");
  }

  lemma TopSitesFlag(o: SearchOptions, usernames: seq<string>)
    requires "--top-sites" !in FreeText(o, usernames)
    ensures "--top-sites" in BuildCommand(o, usernames) <==> !o.allSites && o.topSites != 0
  {
    FlagBySegment(o, usernames, "--top-sites");
    FreeTextMembers(o, usernames, "--top-sites");
    SegmentMembers(o, "--top-sites");
  }

  lemma TimeoutFlag(o: SearchOptions, usernames: seq<string>)
    requires "--timeout" !in FreeText(o, usernames)
    ensures "--timeout" in BuildCommand(o, usernames) <==> o.timeout != 0
  {
    FlagBySegment(o, usernames, "--timeout");
    FreeTextMembers(o, usernames, "--timeout");
    SegmentMembers(o, "--timeout");
  }

  /** `--all-sites` and `--top-sites` never appear together; `--top-sites`
      appears only without `allSites` and with a non-zero count; `--timeout`
      is omitted exactly when the timeout is 0. */
  lemma ScopeAndTimeoutFlags(o: SearchOptions, usernames: seq<string>)
    requires "--all-sites" !in FreeText(o, usernames)
    requires "--top-sites" !in FreeText(o, usernames)
    requires "--timeout" !in FreeText(o, usernames)
    ensures var argv := BuildCommand(o, usernames);
      && ("--all-sites" in argv <==> o.allSites)
      && ("--top-sites" in argv <==> !o.allSites && o.topSites != 0)
      && !("--all-sites" in argv && "--top-sites" in argv)
      && ("--timeout" in argv <==> o.timeout != 0)
  {
    AllSitesFlag(o, usernames);
    TopSitesFlag(o, usernames);
    TimeoutFlag(o, usernames);
  }

  /** A request with every option at its default searches the top 500
      sites with a 30-second timeout. */
  lemma DefaultCommand(usernames: seq<string>)
    ensures BuildCommand(DefaultOptions(), usernames)
         == Prefix + ["--timeout", "30", "--top-sites", "500"] + Suffix + usernames
  {
    assert IntToString(30) == NatToString(3) + ['0'];
    assert IntToString(500) == NatToString(50) + ['0'];
    assert NatToString(50) == NatToString(5) + ['0'];
    var o := DefaultOptions();
    assert IntToString(30) == "30" && IntToString(500) == "500";
    assert TimeoutArgs(o) == ["--timeout", "30"];
    assert ScopeArgs(o) == ["--top-sites", "500"];
    assert TagArgs(o) == [] && SiteArgs(o.siteList) == [] && SwitchArgs(o) == [] && ProxyArgs(o) == [];
    assert OptionArgs(o) == ["--timeout", "30", "--top-sites", "500"];
  }

  /** `useCookies`, `withDomains` and `permute` never reach the command line. */
  lemma IgnoredOptions(o: SearchOptions, usernames: seq<string>, cookies: bool, domains: bool, permute: bool)
    ensures BuildCommand(o.(useCookies := cookies, withDomains := domains, permute := permute), usernames)
         == BuildCommand(o, usernames)
  {
  }
}

=== FILE: decimal.dfy ===
/** Decimal text of integers, as Python's `str(n)` writes it and `int(s)`
    reads it back. Used for `--timeout`/`--top-sites` arguments, the
    "Site N" label and the return-code error message. */
module Decimal {
  import opened Wrappers

  predicate IsDigit(c: char) {
    '0' <= c <= '9'
  }

  function DigitChar(d: nat): (c: char)
    requires d < 10
    ensures IsDigit(c)
    ensures c as int - '0' as int == d
  {
    (d + '0' as int) as char
  }

  function DigitValue(c: char): (d: nat)
    requires IsDigit(c)
    ensures d < 10
    ensures DigitChar(d) == c
  {
    (c as int - '0' as int) as nat
  }

  /** Digits of `n`, most significant first, without leading zeros. */
  function NatToString(n: nat): (s: string)
    ensures |s| >= 1
    ensures forall i :: 0 <= i < |s| ==> IsDigit(s[i])
    ensures s[0] == '0' ==> n == 0
    ensures |s| >= 2 ==> s[0] != '0'
    decreases n
  {
    if n < 10 then [DigitChar(n)] else NatToString(n / 10) + [DigitChar(n % 10)]
  }

  /** Python `str(n)`: a minus sign for negatives, then the digits of `|n|`. */
  function IntToString(n: int): (s: string)
    ensures |s| >= 1
    ensures n < 0 <==> s[0] == '-'
    ensures forall i :: 0 <= i < |s| ==> IsDigit(s[i]) || s[i] == '-'
    ensures forall i :: 1 <= i < |s| ==> IsDigit(s[i])
    ensures |s| >= 2 && s[0] != '-' ==> s[0] != '0'
    ensures n < 0 ==> |s| >= 2 && s[1] != '0'
  {
    if n < 0 then "-" + NatToString(-n) else NatToString(n)
  }

  predicate AllDigits(s: string) {
    forall i :: 0 <= i < |s| ==> IsDigit(s[i])
  }

  /** Value of a digit string, read left to right. */
  function DigitsValue(s: string): nat
    requires AllDigits(s)
    decreases |s|
  {
    if |s| == 0 then 0 else DigitsValue(s[..|s| - 1]) * 10 + DigitValue(s[|s| - 1])
  }

  /** Reads back the text `IntToString` writes: an optional minus sign
      followed by one or more digits. Any other text, including forms
      Python's `int()` would also accept (a `+` sign, surrounding
      whitespace, underscores), is rejected. */
  function ParseInt(s: string): (r: Option<int>)
    ensures r.Some? ==> |s| >= 1
    ensures r.Some? && r.value < 0 ==> s[0] == '-'
  {
    if |s| >= 2 && s[0] == '-' && AllDigits(s[1..]) then Some(0 - DigitsValue(s[1..]) as int)
    else if |s| >= 1 && AllDigits(s) then Some(DigitsValue(s))
    else None
  }

  lemma {:induction false} DigitsValueOfNatToString(n: nat)
    ensures DigitsValue(NatToString(n)) == n
    decreases n
  {
    var s := NatToString(n);
    if n < 10 {
      assert s[..0] == [];
    } else {
      DigitsValueOfNatToString(n / 10);
      assert s[..|s| - 1] == NatToString(n / 10);
    }
  }

  lemma ParseNatToString(n: nat)
    ensures ParseInt(NatToString(n)) == Some(n)
  {
    var s := NatToString(n);
    assert AllDigits(s);
    DigitsValueOfNatToString(n);
  }

  lemma ParseNegativeToString(m: nat)
    requires m > 0
    ensures ParseInt("-" + NatToString(m)) == Some(0 - m as int)
  {
    var digits := NatToString(m);
    var s := "-" + digits;
    assert s[0] == '-' && s[1..] == digits;
    assert AllDigits(digits);
    DigitsValueOfNatToString(m);
  }

  /** `int(str(n)) == n` for every integer. */
  lemma ParseIntToString(n: int)
    ensures ParseInt(IntToString(n)) == Some(n)
  {
    if n < 0 {
      ParseNegativeToString(-n);
    } else {
      ParseNatToString(n);
    }
  }
}

=== FILE: json.dfy ===
/** JSON values as Python's `json.load` hands them to the result formatter,
    with Python's `str()` of such a value. Objects keep their keys in file
    order; the loader has already collapsed repeated keys. */
module Json {
  import opened Wrappers
  import opened Decimal

  datatype Json =
    | JNull
    | JBool(b: bool)
    | JInt(n: int)
    | JStr(s: string)
    | JArr(items: seq<Json>)
    | JObj(fields: seq<Field>)

  datatype Field = Field(key: string, value: Json)

  predicate HasKey(fields: seq<Field>, key: string) {
    exists i :: 0 <= i < |fields| && fields[i].key == key
  }

  /** `d.get(key)` on a dict: the value under `key`, if any. */
  function Lookup(fields: seq<Field>, key: string): (r: Option<Json>)
    ensures r.Some? <==> HasKey(fields, key)
    ensures r.Some? ==> exists i :: 0 <= i < |fields| && fields[i] == Field(key, r.value)
    decreases |fields|
  {
    if |fields| == 0 then None
    else if fields[0].key == key then Some(fields[0].value)
    else
      var r := Lookup(fields[1..], key);
      assert HasKey(fields[1..], key) ==> HasKey(fields, key) by {
        if HasKey(fields[1..], key) {
          var i :| 0 <= i < |fields[1..]| && fields[1..][i].key == key;
          assert fields[i + 1].key == key;
        }
      }
      assert HasKey(fields, key) ==> HasKey(fields[1..], key) by {
        if HasKey(fields, key) {
          var i :| 0 <= i < |fields| && fields[i].key == key;
          assert i != 0;
          assert fields[1..][i - 1].key == key;
        }
      }
      if r.Some? then
        var i :| 0 <= i < |fields[1..]| && fields[1..][i] == Field(key, r.value);
        assert fields[i + 1] == Field(key, r.value);
        r
      else r
  }

  /** `d.get(key, default)`. */
  function GetOr(fields: seq<Field>, key: string, default: Json): (r: Json)
    ensures !HasKey(fields, key) ==> r == default
    ensures HasKey(fields, key) ==> Some(r) == Lookup(fields, key)
  {
    Lookup(fields, key).GetOr(default)
  }

  /** Python's name for the type of a loaded value. */
  function TypeName(j: Json): string {
    match j
    case JNull => "NoneType"
    case JBool(_) => "bool"
    case JInt(_) => "int"
    case JStr(_) => "str"
    case JArr(_) => "list"
    case JObj(_) => "dict"
  }

  function JoinWith(sep: string, parts: seq<string>): string
    decreases |parts|
  {
    if |parts| == 0 then ""
    else if |parts| == 1 then parts[0]
    else parts[0] + sep + JoinWith(sep, parts[1..])
  }

  /** Text of a value that holds no other values. */
  function ScalarText(j: Json): string
    requires !j.JArr? && !j.JObj?
  {
    match j
    case JNull => "None"
    case JBool(b) => if b then "True" else "False"
    case JInt(n) => IntToString(n)
    case JStr(s) => "'" + s + "'"
  }

  /** `repr(j)`; strings are quoted without escaping. */
  function Repr(j: Json): (r: string)
    ensures j.JArr? ==> |r| >= 1 && r[0] == '['
    ensures j.JObj? ==> |r| >= 1 && r[0] == '{'
    decreases j, 0
  {
    match j
    case JArr(items) =>
      "[" + JoinWith(", ", seq(|items|, i requires 0 <= i < |items| => Repr(items[i]))) + "]"
    case JObj(fields) =>
      "{" + JoinWith(", ", seq(|fields|, i requires 0 <= i < |fields| =>
                                  assert fields[i] < j;
                                  "'" + fields[i].key + "': " + Repr(fields[i].value))) + "}"
    case _ => ScalarText(j)
  }

  /** `str(j)`: a string is itself, everything else is its `repr`. */
  function Str(j: Json): (r: string)
    ensures j.JStr? ==> r == j.s
    ensures j.JNull? ==> r == "None"
    ensures j.JBool? ==> r == (if j.b then "True" else "False")
    ensures j.JInt? ==> r == IntToString(j.n)
    ensures j.JArr? ==> |r| >= 1 && r[0] == '['
    ensures j.JObj? ==> |r| >= 1 && r[0] == '{'
  {
    match j
    case JStr(s) => s
    case _ => Repr(j)
  }
}

=== FILE: progress.dfy ===
/** Progress bookkeeping of the search task: how each line of Maigret's
    output moves the counters shown to pollers (backend/main.py, the read
    loop of perform_maigret_search and its update_progress helper).

    The regular expressions are not modelled: a classifier outside this
    model turns each line into a `LineEvent`, and the clock decides whether
    the half-second refresh fires and what the time-based estimate is. */
module Progress {
  import opened Wrappers
  import opened Decimal

  /** A "checked/total" progress counter read from a line. */
  datatype Counter = Counter(checked: nat, total: nat)

  /** What the classifier found in one output line. */
  datatype LineEvent = LineEvent(
    sitesCount: Option<nat>,  // an "N sites" announcement on a searching/found line
    counter: Option<Counter>, // the first progress-bar pattern that matched
    site: Option<string>,     // the site named by the first site pattern that matched
    found: bool)              // some result pattern matched

  /** One line as the loop processes it: its event, whether 500 ms have
      passed since the last refresh, and the time-based estimate then. */
  datatype LineInput = LineInput(event: LineEvent, tick: bool, estimate: nat)

  /** The loop's locals and the session fields they feed. `currentSite` is
      the local label; `progress` and `shownSite` are the session's
      `progress` and `currentSite`, which are written on their own. */
  datatype Tracker = Tracker(
    totalSites: nat,
    sitesChecked: nat,
    resultsFound: nat,
    currentSite: string,
    progress: nat,
    shownSite: string)

  const Initializing: string := "Initializing..."
  const Preparing: string := "Preparing search..."
  const Starting: string := "Starting search..."

  /** State when the first line is read: locals fresh, session progress 1. */
  function InitialTracker(): Tracker {
    Tracker(0, 0, 0, Initializing, 1, Preparing)
  }

  /** `max(total, 1)`: the divisor is never zero. */
  function Divisor(total: nat): (d: nat)
    ensures d >= 1
    ensures total >= 1 ==> d == total
  {
    if total >= 1 then total else 1
  }

  function Min(a: nat, b: nat): nat {
    if a <= b then a else b
  }

  lemma MulMonotone(a: int, b: int, d: nat)
    ensures a <= b ==> a * d <= b * d
  {
    assert (b - a) * d == b * d - a * d;
  }

  lemma PercentAtLeastHundred(checked: nat, d: nat)
    requires 1 <= d
    ensures checked >= d ==> checked * 100 / d >= 100
  {
    var q := checked * 100 / d;
    assert checked * 100 == q * d + checked * 100 % d;
    MulMonotone(q, 99, d);
    MulMonotone(d, checked, 100);
  }

  /** Percentage of sites checked, capped at 95 (the final 5 are kept for
      result processing). Integer division stands for the float ratio. */
  function ParsedProgress(checked: nat, total: nat): (p: nat)
    ensures p <= 95
    ensures checked >= Divisor(total) ==> p == 95
  {
    PercentAtLeastHundred(checked, Divisor(total));
    Min(95, checked * 100 / Divisor(total))
  }

  /** An "N sites" announcement sets the total only while it is still 0. */
  function NoteSitesCount(t: Tracker, count: Option<nat>): Tracker {
    if count.Some? && t.totalSites == 0 then t.(totalSites := count.value, shownSite := Starting)
    else t
  }

  /** A progress counter sets `sitesChecked`, fills a still-zero total and
      recomputes the session progress. */
  function NoteCounter(t: Tracker, counter: Option<Counter>): Tracker {
    match counter
    case None => t
    case Some(c) =>
      var total := if t.totalSites == 0 then c.total else t.totalSites;
      t.(sitesChecked := c.checked, totalSites := total, progress := ParsedProgress(c.checked, total))
  }

  /** A named site becomes the label; otherwise, once some site has been
      counted, an empty or initial label becomes "Site N". */
  function NoteSite(t: Tracker, site: Option<string>): Tracker {
    match site
    case Some(name) => t.(currentSite := name, shownSite := name)
    case None =>
      if t.sitesChecked > 0 && (t.currentSite == "" || t.currentSite == Initializing) then
        var generic := "Site " + IntToString(t.sitesChecked);
        t.(currentSite := generic, shownSite := generic)
      else t
  }

  function NoteFound(t: Tracker, found: bool): Tracker {
    if found then t.(resultsFound := t.resultsFound + 1) else t
  }

  /** The half-second refresh: parsed progress when both counts are known,
      otherwise the time estimate capped at 90; the label is republished. */
  function Refresh(t: Tracker, tick: bool, estimate: nat): Tracker {
    if !tick then t
    else
      var p := if t.totalSites > 0 && t.sitesChecked > 0 then ParsedProgress(t.sitesChecked, t.totalSites)
               else Min(90, estimate);
      t.(progress := p, shownSite := t.currentSite)
  }

  /** Everything one output line does, in the loop's order. */
  function Step(t: Tracker, line: LineInput): (r: Tracker)
    ensures t.totalSites != 0 ==> r.totalSites == t.totalSites
    ensures r.totalSites != t.totalSites ==>
              t.totalSites == 0
              && ((line.event.sitesCount.Some? && r.totalSites == line.event.sitesCount.value)
                  || (line.event.counter.Some? && r.totalSites == line.event.counter.value.total))
    ensures r.resultsFound == t.resultsFound + (if line.event.found then 1 else 0)
    ensures r.sitesChecked == (if line.event.counter.Some? then line.event.counter.value.checked else t.sitesChecked)
    ensures r.progress <= 95 || r.progress == t.progress
    ensures line.event.counter.None? && !line.tick ==> r.progress == t.progress
    ensures line.event.counter.Some? && !line.tick ==> r.progress == ParsedProgress(r.sitesChecked, r.totalSites)
    ensures line.event.site.Some? ==> r.currentSite == line.event.site.value
    ensures line.tick ==> r.shownSite == r.currentSite
    ensures line.tick && r.totalSites > 0 && r.sitesChecked > 0 ==> r.progress == ParsedProgress(r.sitesChecked, r.totalSites)
    ensures line.tick && !(r.totalSites > 0 && r.sitesChecked > 0) ==> r.progress == Min(90, line.estimate)
    ensures line.event.site.None? ==>
              r.currentSite == (if r.sitesChecked > 0 && (t.currentSite == "" || t.currentSite == Initializing)
                                then "Site " + IntToString(r.sitesChecked) else t.currentSite)
    ensures !line.tick && line.event.site.Some? ==> r.shownSite == line.event.site.value
    ensures (!line.tick && line.event.site.None? && r.sitesChecked > 0
             && (t.currentSite == "" || t.currentSite == Initializing))
            ==> r.shownSite == r.currentSite
    ensures (!line.tick && line.event.site.None?
             && !(r.sitesChecked > 0 && (t.currentSite == "" || t.currentSite == Initializing)))
            ==> r.shownSite == (if line.event.sitesCount.Some? && t.totalSites == 0 then Starting else t.shownSite)
  {
    var e := line.event;
    Refresh(NoteFound(NoteSite(NoteCounter(NoteSitesCount(t, e.sitesCount), e.counter), e.site), e.found),
            line.tick, line.estimate)
  }

  /** State after the given lines, in order. */
  function Run(t: Tracker, lines: seq<LineInput>): Tracker
    decreases |lines|
  {
    if |lines| == 0 then t else Step(Run(t, lines[..|lines| - 1]), lines[|lines| - 1])
  }

  // ---------------------------------------------------------------------
  // Reference definitions and what a run of lines promises.

  /** Number of lines on which a result pattern matched. */
  function CountFound(lines: seq<LineInput>): nat
    decreases |lines|
  {
    if |lines| == 0 then 0
    else CountFound(lines[..|lines| - 1]) + (if lines[|lines| - 1].event.found then 1 else 0)
  }

  /** The values one line offers for the total: its "N sites" count, then
      its counter's total. */
  function LineCandidates(e: LineEvent): seq<nat> {
    (if e.sitesCount.Some? then [e.sitesCount.value] else [])
    + (if e.counter.Some? then [e.counter.value.total] else [])
  }

  /** Every value the lines offer for the total, in the order they are seen. */
  function TotalCandidates(lines: seq<LineInput>): seq<nat>
    decreases |lines|
  {
    if |lines| == 0 then []
    else TotalCandidates(lines[..|lines| - 1]) + LineCandidates(lines[|lines| - 1].event)
  }

  /** The first non-zero value, or 0 if there is none. */
  function FirstNonZero(xs: seq<nat>): (r: nat)
    ensures r != 0 ==> r in xs
    ensures (forall i :: 0 <= i < |xs| ==> xs[i] == 0) ==> r == 0
    decreases |xs|
  {
    if |xs| == 0 then 0 else if xs[0] != 0 then xs[0] else FirstNonZero(xs[1..])
  }

  /** The `checked` count of the last counter seen, or `otherwise`. */
  function LastChecked(lines: seq<LineInput>, otherwise: nat): nat
    decreases |lines|
  {
    if |lines| == 0 then otherwise
    else if lines[|lines| - 1].event.counter.Some? then lines[|lines| - 1].event.counter.value.checked
    else LastChecked(lines[..|lines| - 1], otherwise)
  }

  lemma {:induction false} FirstNonZeroAppend(a: seq<nat>, b: seq<nat>)
    ensures FirstNonZero(a + b) == if FirstNonZero(a) != 0 then FirstNonZero(a) else FirstNonZero(b)
    decreases |a|
  {
    if |a| == 0 {
      assert a + b == b;
    } else {
      assert (a + b)[1..] == a[1..] + b;
      FirstNonZeroAppend(a[1..], b);
    }
  }

  /** Session progress never exceeds 95 while output is being read. */
  lemma {:induction false} RunProgressBounded(t: Tracker, lines: seq<LineInput>)
    requires t.progress <= 95
    ensures Run(t, lines).progress <= 95
    decreases |lines|
  {
    if |lines| > 0 {
      RunProgressBounded(t, lines[..|lines| - 1]);
    }
  }

  /** `resultsFound` counts exactly the lines on which a result matched. */
  lemma {:induction false} RunResultsFound(t: Tracker, lines: seq<LineInput>)
    ensures Run(t, lines).resultsFound == t.resultsFound + CountFound(lines)
    decreases |lines|
  {
    if |lines| > 0 {
      RunResultsFound(t, lines[..|lines| - 1]);
    }
  }

  lemma {:induction false} CountFoundPrefix(lines: seq<LineInput>, i: nat, j: nat)
    requires i <= j <= |lines|
    ensures CountFound(lines[..i]) <= CountFound(lines[..j]) <= CountFound(lines[..i]) + (j - i)
    decreases j - i
  {
    if i < j {
      CountFoundPrefix(lines, i, j - 1);
      assert lines[..j][..j - 1] == lines[..j - 1];
    }
  }

  /** `resultsFound` never decreases, and rises by at most one per line. */
  lemma ResultsFoundMonotone(t: Tracker, lines: seq<LineInput>, i: nat, j: nat)
    requires i <= j <= |lines|
    ensures Run(t, lines[..i]).resultsFound <= Run(t, lines[..j]).resultsFound
    ensures Run(t, lines[..j]).resultsFound <= Run(t, lines[..i]).resultsFound + (j - i)
  {
    RunResultsFound(t, lines[..i]);
    RunResultsFound(t, lines[..j]);
    CountFoundPrefix(lines, i, j);
  }

  /** One line writes the total only while it is 0, taking the first
      non-zero value the line offers. */
  lemma StepTotal(t: Tracker, line: LineInput)
    ensures Step(t, line).totalSites
         == if t.totalSites != 0 then t.totalSites else FirstNonZero(LineCandidates(line.event))
  {
    var e := line.event;
    var c1: seq<nat> := if e.sitesCount.Some? then [e.sitesCount.value] else [];
    var c2: seq<nat> := if e.counter.Some? then [e.counter.value.total] else [];
    FirstNonZeroAppend(c1, c2);
    var u := NoteCounter(NoteSitesCount(t, e.sitesCount), e.counter);
    assert Step(t, line).totalSites == u.totalSites;
  }

  /** The total is written only while it is 0: the first non-zero value
      offered wins and is never replaced. */
  lemma {:induction false} RunTotalFirstWriteWins(t: Tracker, lines: seq<LineInput>)
    ensures Run(t, lines).totalSites
         == if t.totalSites != 0 then t.totalSites else FirstNonZero(TotalCandidates(lines))
    decreases |lines|
  {
    if |lines| > 0 {
      var init := lines[..|lines| - 1];
      var last := lines[|lines| - 1];
      RunTotalFirstWriteWins(t, init);
      StepTotal(Run(t, init), last);
      FirstNonZeroAppend(TotalCandidates(init), LineCandidates(last.event));
    }
  }

  /** `sitesChecked` is whatever the latest counter said (it may go down). */
  lemma {:induction false} RunSitesChecked(t: Tracker, lines: seq<LineInput>)
    ensures Run(t, lines).sitesChecked == LastChecked(lines, t.sitesChecked)
    decreases |lines|
  {
    if |lines| > 0 {
      RunSitesChecked(t, lines[..|lines| - 1]);
    }
  }

  /** The session's progress is not monotone: a time estimate published by
      the refresh can be followed by a lower parsed percentage. */
  lemma ProgressCanRegress()
    ensures var quiet := LineEvent(None, None, None, false);
            var tick := LineInput(quiet, true, 50);
            var counted := LineInput(quiet.(counter := Some(Counter(1, 100))), false, 0);
            && Run(InitialTracker(), [tick]).progress == 50
            && Run(InitialTracker(), [tick, counted]).progress == 1
  {
    var quiet := LineEvent(None, None, None, false);
    var tick := LineInput(quiet, true, 50);
    var counted := LineInput(quiet.(counter := Some(Counter(1, 100))), false, 0);
    assert [tick, counted][..1] == [tick];
    assert [tick][..0] == [];
  }
}

=== FILE: reports.dfy ===
/** Turning Maigret's per-username JSON reports into the session's result
    list (backend/main.py, the return-code-0 branch of
    perform_maigret_search): status normalisation, site records with
    defaulted fields, and one entry per requested username. */
module Reports {
  import opened Wrappers
  import opened Json

  /** One site of a user's result, as the frontend receives it. */
  datatype SiteRecord = SiteRecord(
    siteName: string,
    url: Json,
    status: string,
    tags: Json,
    metadata: Json,
    urlUser: Json)

  /** One requested username with its site records. The source also adds
      an `extractedData` object and a `networkGraph` list, always empty. */
  datatype UserResult = UserResult(username: string, sites: seq<SiteRecord>)

  /** A report file that exists: parsed, or rejected by the JSON decoder. */
  datatype ReportFile = Parsed(data: Json) | Garbled(reason: string)

  /** Why turning reports into results failed: a JSON decoding error, or
      any other exception (whose message is given). */
  datatype ProcessingError = DecodeError(reason: string) | ProcessError(reason: string)

  // ---------------------------------------------------------------------
  // Status normalisation.

  function LowerChar(c: char): char {
    if 'A' <= c <= 'Z' then (c as int + 32) as char else c
  }

  /** `s.lower()` as far as comparing with "claimed"/"unclaimed" goes:
      only ASCII letters can lower-case to those letters. */
  function Lower(s: string): (r: string)
    ensures |r| == |s|
    ensures forall i :: 0 <= i < |s| ==> r[i] == LowerChar(s[i])
  {
    seq(|s|, i requires 0 <= i < |s| => LowerChar(s[i]))
  }

  /** "claimed"/"unclaimed" in any letter case become "Claimed"/"Unclaimed"
      (`str.title()`); every other status is kept as it is. */
  function NormalizeStatus(raw: string): (r: string)
    ensures r == "Claimed" <==> Lower(raw) == "claimed"
    ensures r == "Unclaimed" <==> Lower(raw) == "unclaimed"
    ensures Lower(raw) != "claimed" && Lower(raw) != "unclaimed" ==> r == raw
  {
    if Lower(raw) == "claimed" then "Claimed"
    else if Lower(raw) == "unclaimed" then "Unclaimed"
    else raw
  }

  /** Normalising twice is normalising once. */
  lemma NormalizeIdempotent(raw: string)
    ensures NormalizeStatus(NormalizeStatus(raw)) == NormalizeStatus(raw)
  {
    var r := NormalizeStatus(raw);
    if Lower(raw) == "claimed" {
      assert Lower(r) == "claimed";
    } else if Lower(raw) == "unclaimed" {
      assert Lower(r) == "unclaimed";
    }
  }

  /** The raw status of a site entry: the inner "status" string of a dict
      ("unknown" if absent), or `str()` of anything else. A dict whose
      inner status is not a string makes `.lower()` raise. */
  function RawStatus(status: Json): (r: Result<string, string>)
    ensures status.JStr? ==> r == Ok(status.s)
    ensures !status.JObj? ==> r == Ok(Str(status))
    ensures status.JObj? && !HasKey(status.fields, "status") ==> r == Ok("unknown")
    ensures (status.JObj? && HasKey(status.fields, "status") && Lookup(status.fields, "status").value.JStr?)
        ==> r == Ok(Lookup(status.fields, "status").value.s)
    ensures r.Err? <==> status.JObj? && HasKey(status.fields, "status")
                         && !Lookup(status.fields, "status").value.JStr?
  {
    match status
    case JObj(fields) =>
      (match Lookup(fields, "status")
       case None => Ok("unknown")
       case Some(JStr(s)) => Ok(s)
       case Some(v) => Err("'" + TypeName(v) + "' object has no attribute 'lower'"))
    case _ => Ok(Str(status))
  }

  /** A non-dict status that is not a string never reads as claimed or
      unclaimed: its text starts with a digit, a sign, a bracket or a
      capital, so it passes through normalisation unchanged. */
  lemma NonStringStatusUnchanged(status: Json)
    requires !status.JObj? && !status.JStr?
    ensures RawStatus(status).Ok?
    ensures NormalizeStatus(RawStatus(status).value) == Str(status)
  {
    var s := Str(status);
    assert LowerChar(s[0]) != 'c' && LowerChar(s[0]) != 'u' by {
      if status.JInt? {
        assert Decimal.IsDigit(s[0]) || s[0] == '-';
      }
    }
    assert Lower(s)[0] != 'c' && Lower(s)[0] != 'u';
    assert Lower(s) != "claimed" && Lower(s) != "unclaimed";
  }

  // ---------------------------------------------------------------------
  // Site records.

  /** A report entry becomes a site record only if it is a dict with a
      "status" key. */
  predicate IsSiteEntry(f: Field) {
    f.value.JObj? && HasKey(f.value.fields, "status")
  }

  /** The record for one site entry, with the source's defaults for the
      missing fields. */
  function MakeRecord(f: Field): (r: Result<SiteRecord, string>)
    requires IsSiteEntry(f)
    ensures r.Ok? <==> RawStatus(Lookup(f.value.fields, "status").value).Ok?
  {
    var site := f.value.fields;
    var raw :- RawStatus(Lookup(site, "status").value);
    Ok(SiteRecord(
      f.key,
      GetOr(site, "url_main", JStr("")),
      NormalizeStatus(raw),
      GetOr(site, "tags", JArr([])),
      GetOr(site, "metadata", JObj([])),
      GetOr(site, "url_user", JStr(""))))
  }

  /** What a site entry's record holds: its key as the site name, the
      normalised status, and the stored url, user url, tags and metadata,
      each defaulted when absent. */
  lemma MakeRecordFields(f: Field)
    requires IsSiteEntry(f)
    requires MakeRecord(f).Ok?
    ensures var r := MakeRecord(f).value;
            var site := f.value.fields;
            && r.siteName == f.key
            && r.status == NormalizeStatus(RawStatus(Lookup(site, "status").value).value)
            && (HasKey(site, "url_main") ==> r.url == Lookup(site, "url_main").value)
            && (!HasKey(site, "url_main") ==> r.url == JStr(""))
            && (HasKey(site, "url_user") ==> r.urlUser == Lookup(site, "url_user").value)
            && (!HasKey(site, "url_user") ==> r.urlUser == JStr(""))
            && (HasKey(site, "tags") ==> r.tags == Lookup(site, "tags").value)
            && (!HasKey(site, "tags") ==> r.tags == JArr([]))
            && (HasKey(site, "metadata") ==> r.metadata == Lookup(site, "metadata").value)
            && (!HasKey(site, "metadata") ==> r.metadata == JObj([]))
  {
  }

  /** The entries of a report dict that become site records, in order. */
  function SiteEntries(fields: seq<Field>): (r: seq<Field>)
    ensures forall i :: 0 <= i < |r| ==> IsSiteEntry(r[i])
    ensures |r| <= |fields|
    decreases |fields|
  {
    if |fields| == 0 then []
    else if IsSiteEntry(fields[0]) then [fields[0]] + SiteEntries(fields[1..])
    else SiteEntries(fields[1..])
  }

  /** The records of one report dict, or the first exception raised. */
  function RecordsOf(fields: seq<Field>): Result<seq<SiteRecord>, string>
    decreases |fields|
  {
    if |fields| == 0 then Ok([])
    else if IsSiteEntry(fields[0]) then
      var first :- MakeRecord(fields[0]);
      var rest :- RecordsOf(fields[1..]);
      Ok([first] + rest)
    else RecordsOf(fields[1..])
  }

  predicate AllRecordsOk(entries: seq<Field>)
    requires forall i :: 0 <= i < |entries| ==> IsSiteEntry(entries[i])
  {
    forall i :: 0 <= i < |entries| ==> MakeRecord(entries[i]).Ok?
  }

  /** Prepending an element keeps "every element succeeds under `g`"
      exactly when that element succeeds too. */
  lemma AllOkCons<A, B>(g: A --> Result<B, string>, e: A, tail: seq<A>)
    requires g.requires(e)
    requires forall i :: 0 <= i < |tail| ==> g.requires(tail[i])
    ensures (forall i :: 0 <= i < |tail| + 1 ==> g.requires(([e] + tail)[i]) && g(([e] + tail)[i]).Ok?)
        <==> g(e).Ok? && forall i :: 0 <= i < |tail| ==> g(tail[i]).Ok?
  {
    var entries := [e] + tail;
    assert entries[0] == e;
    assert forall i :: 0 <= i < |tail| ==> entries[i + 1] == tail[i];
    assert forall i :: 1 <= i < |entries| ==> entries[i] == tail[i - 1];
  }

  lemma AllRecordsOkCons(f: Field, tail: seq<Field>)
    requires IsSiteEntry(f)
    requires forall i :: 0 <= i < |tail| ==> IsSiteEntry(tail[i])
    ensures AllRecordsOk([f] + tail) <==> MakeRecord(f).Ok? && AllRecordsOk(tail)
  {
    AllOkCons(MakeRecord, f, tail);
  }

  /** Reading a report dict succeeds exactly when every site entry's status
      can be read. */
  lemma {:induction false} RecordsOfOk(fields: seq<Field>)
    ensures RecordsOf(fields).Ok? <==> AllRecordsOk(SiteEntries(fields))
    decreases |fields|
  {
    if |fields| > 0 {
      RecordsOfOk(fields[1..]);
      if IsSiteEntry(fields[0]) {
        AllRecordsOkCons(fields[0], SiteEntries(fields[1..]));
      }
    }
  }

  /** Prepending a matched pair keeps two lists matched index by index
      under `g`. */
  lemma MatchCons<A, B>(g: A --> Result<B, string>, e: A, x: B, entries: seq<A>, recs: seq<B>)
    requires g.requires(e) && g(e) == Ok(x)
    requires |recs| == |entries|
    requires forall i :: 0 <= i < |entries| ==> g.requires(entries[i]) && Ok(recs[i]) == g(entries[i])
    ensures forall i :: 0 <= i < |entries| + 1 ==>
              g.requires(([e] + entries)[i]) && Ok(([x] + recs)[i]) == g(([e] + entries)[i])
  {
    forall i | 0 <= i < |entries| + 1
      ensures g.requires(([e] + entries)[i]) && Ok(([x] + recs)[i]) == g(([e] + entries)[i])
    {
      if i > 0 {
        assert ([x] + recs)[i] == recs[i - 1];
        assert ([e] + entries)[i] == entries[i - 1];
      }
    }
  }

  /** A successful read gives one record per site entry, in order. */
  lemma {:induction false} RecordsOfEntries(fields: seq<Field>)
    requires RecordsOf(fields).Ok?
    ensures |RecordsOf(fields).value| == |SiteEntries(fields)|
    ensures forall i :: 0 <= i < |SiteEntries(fields)| ==>
              Ok(RecordsOf(fields).value[i]) == MakeRecord(SiteEntries(fields)[i])
    decreases |fields|
  {
    if |fields| > 0 {
      RecordsOfEntries(fields[1..]);
      if IsSiteEntry(fields[0]) {
        var x := MakeRecord(fields[0]).value;
        var tail := RecordsOf(fields[1..]).value;
        var later := SiteEntries(fields[1..]);
        assert RecordsOf(fields).value == [x] + tail;
        assert SiteEntries(fields) == [fields[0]] + later;
        MatchCons(MakeRecord, fields[0], x, later, tail);
      }
    }
  }

  /** The records a whole report contributes: none unless it is a dict. */
  function RecordsOfReport(data: Json): Result<seq<SiteRecord>, string> {
    if data.JObj? then RecordsOf(data.fields) else Ok([])
  }

  /** Records of every report in turn, concatenated. */
  function AllRecords(reports: seq<Json>): (r: Result<seq<SiteRecord>, string>)
    ensures r.Ok? <==> forall i :: 0 <= i < |reports| ==> RecordsOfReport(reports[i]).Ok?
    decreases |reports|
  {
    if |reports| == 0 then Ok([])
    else
      var first := RecordsOfReport(reports[0]);
      var rest := AllRecords(reports[1..]);
      assert forall i :: 1 <= i < |reports| ==> reports[i] == reports[1..][i - 1];
      if first.Err? then Err(first.error)
      else if rest.Err? then Err(rest.error)
      else Ok(first.value + rest.value)
  }

  /** The records of a single report are that report's own records. */
  lemma AllRecordsSingle(data: Json)
    ensures AllRecords([data]) == RecordsOfReport(data)
  {
    assert [data][1..] == [];
    var none: seq<SiteRecord> := [];
    if RecordsOfReport(data).Ok? {
      assert RecordsOfReport(data).value + none == RecordsOfReport(data).value;
    }
  }

  /** Collecting over two runs of reports succeeds iff both do, and gives
      the first run's records followed by the second's. */
  lemma {:induction false} AllRecordsAppend(a: seq<Json>, b: seq<Json>)
    ensures AllRecords(a + b).Ok? <==> AllRecords(a).Ok? && AllRecords(b).Ok?
    ensures AllRecords(a + b).Ok? ==> AllRecords(a + b).value == AllRecords(a).value + AllRecords(b).value
    decreases |a|
  {
    if |a| == 0 {
      assert a + b == b;
    } else {
      var ab := a + b;
      assert ab[0] == a[0];
      assert ab[1..] == a[1..] + b;
      AllRecordsAppend(a[1..], b);
      var first := RecordsOfReport(a[0]);
      var restA := AllRecords(a[1..]);
      var restAB := AllRecords(a[1..] + b);
      assert AllRecords(ab) == if first.Err? then Err(first.error)
                               else if restAB.Err? then Err(restAB.error)
                               else Ok(first.value + restAB.value);
      assert AllRecords(a) == if first.Err? then Err(first.error)
                              else if restA.Err? then Err(restA.error)
                              else Ok(first.value + restA.value);
      if first.Ok? && restA.Ok? && AllRecords(b).Ok? {
        assert first.value + (restA.value + AllRecords(b).value)
            == (first.value + restA.value) + AllRecords(b).value;
      }
    }
  }

  // ---------------------------------------------------------------------
  // Loading reports and formatting the result list.

  /** What stands in for a username whose report file does not exist. */
  function Placeholder(username: string): Json {
    JObj([Field("username", JStr(username)), Field("sites", JObj([]))])
  }

  /** A placeholder contributes no site records. */
  lemma PlaceholderHasNoRecords(username: string)
    ensures RecordsOfReport(Placeholder(username)) == Ok([])
  {
    var fields := Placeholder(username).fields;
    assert !HasKey(JObj([]).fields, "status");
    assert !IsSiteEntry(fields[0]) && !IsSiteEntry(fields[1]);
    assert fields[1..][1..] == [];
    assert RecordsOf(fields[1..][1..]) == Ok([]);
    assert RecordsOf(fields[1..]) == Ok([]);
  }

  /** A loaded value that has no `len()`. */
  predicate Scalar(data: Json) {
    data.JNull? || data.JBool? || data.JInt?
  }

  /** A report file the loader accepts: it decodes, to a value with a length. */
  predicate Loadable(f: ReportFile) {
    f.Parsed? && !Scalar(f.data)
  }

  /** `len(data)` of a loaded report: scalars have no length. */
  function Sized(data: Json): Result<Json, ProcessingError> {
    if Scalar(data) then
      Err(ProcessError("object of type '" + TypeName(data) + "' has no len()"))
    else Ok(data)
  }

  /** One username's report: the placeholder when there is no file, the
      parsed value when it has a length, the failure otherwise. */
  function LoadOne(u: string, files: map<string, ReportFile>): (r: Result<Json, ProcessingError>)
    ensures r.Ok? <==> (u in files ==> Loadable(files[u]))
    ensures r.Ok? ==> if u in files then files[u] == Parsed(r.value) else r.value == Placeholder(u)
    ensures u in files && files[u].Garbled? ==> r == Err(DecodeError(files[u].reason))
    ensures u in files && files[u].Parsed? && Scalar(files[u].data) ==> r.Err? && r.error.ProcessError?
  {
    if u !in files then Ok(Placeholder(u))
    else match files[u]
         case Garbled(reason) => Err(DecodeError(reason))
         case Parsed(data) => Sized(data)
  }

  /** Reads each username's report in request order: a missing file gives
      the placeholder, the first undecodable file or scalar report stops
      the reading. */
  function LoadReports(usernames: seq<string>, files: map<string, ReportFile>): (r: Result<seq<Json>, ProcessingError>)
    ensures r.Ok? ==> |r.value| == |usernames|
    ensures r.Ok? ==> forall i :: 0 <= i < |usernames| ==>
              if usernames[i] in files then files[usernames[i]] == Parsed(r.value[i])
              else r.value[i] == Placeholder(usernames[i])
    ensures r.Ok? <==> forall i :: 0 <= i < |usernames| && usernames[i] in files ==> Loadable(files[usernames[i]])
    ensures (forall u :: u in usernames ==> u !in files) ==> r.Ok?
    decreases |usernames|
  {
    if |usernames| == 0 then Ok([])
    else
      var first := LoadOne(usernames[0], files);
      var rest := LoadReports(usernames[1..], files);
      assert forall i :: 1 <= i < |usernames| ==> usernames[i] == usernames[1..][i - 1];
      if first.Err? then Err(first.error)
      else if rest.Err? then Err(rest.error)
      else Ok([first.value] + rest.value)
  }

  /** One entry per username, each carrying the records of ALL loaded
      reports (the formatter does not match reports to usernames). */
  function FormatResults(usernames: seq<string>, reports: seq<Json>): (r: Result<seq<UserResult>, ProcessingError>)
    ensures r.Ok? ==> |r.value| == |usernames|
    ensures r.Ok? ==> forall i :: 0 <= i < |usernames| ==> r.value[i].username == usernames[i]
    ensures r.Ok? && |usernames| > 0 ==> forall i :: 0 <= i < |usernames| ==> Ok(r.value[i].sites) == AllRecords(reports)
    ensures |usernames| > 0 ==> (r.Ok? <==> AllRecords(reports).Ok?)
  {
    if |usernames| == 0 then Ok([])
    else
      match AllRecords(reports)
      case Err(e) => Err(ProcessError(e))
      case Ok(sites) => Ok(seq(|usernames|, i requires 0 <= i < |usernames| => UserResult(usernames[i], sites)))
  }

  /** The whole branch: load, then format. */
  function ProcessReports(usernames: seq<string>, files: map<string, ReportFile>): (r: Result<seq<UserResult>, ProcessingError>)
    ensures r.Ok? ==> |r.value| == |usernames|
    ensures r.Ok? ==> forall i :: 0 <= i < |usernames| ==> r.value[i].username == usernames[i]
    ensures r.Ok? ==> forall i, j :: 0 <= i < |usernames| && 0 <= j < |usernames| ==> r.value[i].sites == r.value[j].sites
    ensures (exists i :: 0 <= i < |usernames| && usernames[i] in files && !Loadable(files[usernames[i]])) ==> r.Err?
  {
    var reports :- LoadReports(usernames, files);
    FormatResults(usernames, reports)
  }

  lemma {:induction false} AllPlaceholdersHaveNoRecords(usernames: seq<string>)
    ensures AllRecords(seq(|usernames|, i requires 0 <= i < |usernames| => Placeholder(usernames[i]))) == Ok([])
    decreases |usernames|
  {
    var reports := seq(|usernames|, i requires 0 <= i < |usernames| => Placeholder(usernames[i]));
    if |usernames| > 0 {
      PlaceholderHasNoRecords(usernames[0]);
      AllPlaceholdersHaveNoRecords(usernames[1..]);
      assert reports[1..] == seq(|usernames[1..]|, i requires 0 <= i < |usernames[1..]| => Placeholder(usernames[1..][i]));
      assert reports[0] == Placeholder(usernames[0]);
      assert RecordsOfReport(reports[0]) == Ok([]);
      var none: seq<SiteRecord> := [];
      assert none + none == none;
    }
  }

  /** With no report files at all, every username still gets an entry, in
      request order, and every entry has no sites. */
  lemma NoReportsGiveEmptyResults(usernames: seq<string>, files: map<string, ReportFile>)
    requires forall u :: u in usernames ==> u !in files
    ensures ProcessReports(usernames, files).Ok?
    ensures var r := ProcessReports(usernames, files).value;
            && |r| == |usernames|
            && forall i :: 0 <= i < |r| ==> r[i] == UserResult(usernames[i], [])
  {
    var reports := LoadReports(usernames, files).value;
    assert reports == seq(|usernames|, i requires 0 <= i < |usernames| => Placeholder(usernames[i]));
    AllPlaceholdersHaveNoRecords(usernames);
  }

  predicate Normalised(r: SiteRecord) {
    NormalizeStatus(r.status) == r.status
  }

  /** Prepending an element that satisfies `p` to a list whose elements all
      do keeps them all satisfying it. */
  lemma HoldsCons<T>(p: T -> bool, x: T, xs: seq<T>)
    requires p(x)
    requires forall i :: 0 <= i < |xs| ==> p(xs[i])
    ensures forall i :: 0 <= i < |xs| + 1 ==> p(([x] + xs)[i])
  {
    assert forall i :: 1 <= i < |xs| + 1 ==> ([x] + xs)[i] == xs[i - 1];
  }

  /** Every status in a formatted result is already normalised. */
  lemma {:induction false} RecordsNormalised(fields: seq<Field>)
    requires RecordsOf(fields).Ok?
    ensures forall i :: 0 <= i < |RecordsOf(fields).value| ==>
              NormalizeStatus(RecordsOf(fields).value[i].status) == RecordsOf(fields).value[i].status
    decreases |fields|
  {
    if |fields| > 0 {
      RecordsNormalised(fields[1..]);
      if IsSiteEntry(fields[0]) {
        var raw := RawStatus(Lookup(fields[0].value.fields, "status").value).value;
        NormalizeIdempotent(raw);
        var recs := RecordsOf(fields).value;
        var tail := RecordsOf(fields[1..]).value;
        assert recs == [MakeRecord(fields[0]).value] + tail;
        MakeRecordFields(fields[0]);
        assert recs[0].status == NormalizeStatus(raw);
        HoldsCons(Normalised, recs[0], tail);
      }
    }
  }
}

=== FILE: sessions.dfy ===
/** Search sessions: creation by the start endpoint, the background search
    task that drives a session from pending to completed or failed, and the
    guards of the status and results endpoints (backend/main.py).

    The store is the in-memory `search_sessions` dict. Identifiers and
    timestamps come from outside (uuid4 and the clock); the subprocess is
    replaced by a `TaskRun` saying what its output lines were and how it
    ended. */
module Sessions {
  import opened Wrappers
  import opened Decimal
  import Command
  import opened Progress
  import opened Reports

  datatype Status = Pending | Running | Completed | Failed

  /** Position in the lifecycle pending -> running -> completed | failed. */
  function Rank(s: Status): nat {
    match s
    case Pending => 0
    case Running => 1
    case Completed => 2
    case Failed => 2
  }

  predicate IsTerminal(s: Status) {
    s == Completed || s == Failed
  }

  /** A stored session. Keys the source only adds later are `Option`s:
      absent until the search task first writes them. */
  datatype Session = Session(
    id: string,
    usernames: seq<string>,
    options: Command.SearchOptions,
    status: Status,
    progress: nat,
    results: seq<UserResult>,
    createdAt: string,
    currentSite: Option<string>,
    sitesChecked: Option<nat>,
    totalSites: Option<nat>,
    resultsFound: Option<nat>,
    error: Option<string>,
    completedAt: Option<string>)

  type Store = map<string, Session>

  datatype HttpError = HttpError(code: nat, detail: string)

  const NotFound: HttpError := HttpError(404, "Search session not found")
  const NotCompleted: HttpError := HttpError(400, "Search not completed")

  // ---------------------------------------------------------------------
  // Endpoints.

  function NewSession(id: string, usernames: seq<string>, options: Command.SearchOptions, createdAt: string): Session {
    Session(id, usernames, options, Pending, 0, [], createdAt, None, None, None, None, None, None)
  }

  /** POST /api/search: store a fresh pending session under `id` (a new
      uuid4) and answer with it; the search task is scheduled separately. */
  function StartSearch(store: Store, id: string, usernames: seq<string>, options: Command.SearchOptions, createdAt: string)
    : (r: (Store, Session))
    ensures r.0.Keys == store.Keys + {id}
    ensures r.0[id] == r.1
    ensures forall k :: k in store && k != id ==> r.0[k] == store[k]
    ensures r.1.status == Pending && r.1.progress == 0 && r.1.results == []
    ensures r.1.id == id && r.1.usernames == usernames && r.1.options == options
  {
    var s := NewSession(id, usernames, options, createdAt);
    (store[id := s], s)
  }

  /** What GET /api/search/{id} reports. */
  datatype StatusView = StatusView(
    sessionId: string,
    status: Status,
    progress: nat,
    currentSite: Option<string>,
    sitesChecked: nat,
    totalSites: nat,
    resultsFound: nat)

  /** GET /api/search/{id}: 404 for an unknown id; otherwise the status
      with missing counters read as 0 and a missing site as none. */
  function GetSearchStatus(store: Store, id: string): (r: Result<StatusView, HttpError>)
    ensures r.Err? <==> id !in store
    ensures r.Err? ==> r.error == NotFound
    ensures r.Ok? ==>
              var s := store[id];
              && r.value.sessionId == id
              && r.value.status == s.status
              && r.value.progress == s.progress
              && r.value.currentSite == s.currentSite
              && (s.sitesChecked.Some? ==> r.value.sitesChecked == s.sitesChecked.value)
              && (s.sitesChecked.None? ==> r.value.sitesChecked == 0)
              && (s.totalSites.Some? ==> r.value.totalSites == s.totalSites.value)
              && (s.totalSites.None? ==> r.value.totalSites == 0)
              && (s.resultsFound.Some? ==> r.value.resultsFound == s.resultsFound.value)
              && (s.resultsFound.None? ==> r.value.resultsFound == 0)
  {
    if id !in store then Err(NotFound)
    else
      var s := store[id];
      Ok(StatusView(id, s.status, s.progress, s.currentSite,
                    s.sitesChecked.GetOr(0), s.totalSites.GetOr(0), s.resultsFound.GetOr(0)))
  }

  /** GET /api/results/{id}: the whole session, only once it is completed. */
  function GetSearchResults(store: Store, id: string): (r: Result<Session, HttpError>)
    ensures r.Ok? <==> id in store && store[id].status == Completed
    ensures r.Ok? ==> r.value == store[id]
    ensures id !in store ==> r == Err(NotFound)
    ensures id in store && store[id].status != Completed ==> r == Err(NotCompleted)
  {
    if id !in store then Err(NotFound)
    else if store[id].status != Completed then Err(NotCompleted)
    else Ok(store[id])
  }

  /** A just-started session reads as pending with zero counters and no
      site, and its results are refused with 400. */
  lemma NewSessionViews(store: Store, id: string, usernames: seq<string>, options: Command.SearchOptions, createdAt: string)
    ensures var store' := StartSearch(store, id, usernames, options, createdAt).0;
            && GetSearchStatus(store', id) == Ok(StatusView(id, Pending, 0, None, 0, 0, 0))
            && GetSearchResults(store', id) == Err(NotCompleted)
  {
  }

  // ---------------------------------------------------------------------
  // The search task.

  /** How the subprocess went: it exited with a return code, the watchdog
      stopped it, or an exception with the given message was raised. */
  datatype Ending = Exited(returnCode: int) | TimedOut | Raised(message: string)

  /** Everything the task learns from outside: the classified output lines,
      how the process ended, the report files present afterwards, and the
      completion time. */
  datatype TaskRun = TaskRun(lines: seq<LineInput>, ending: Ending, files: map<string, ReportFile>, completedAt: string)

  /** The task's opening writes: running, counters zeroed, then progress 1. */
  function BeginRun(s: Session): (r: Session)
    ensures r.status == Running
    ensures r == Publish(s, InitialTracker()).(status := Running)
  {
    s.(status := Running, progress := 1, currentSite := Some(Preparing),
       sitesChecked := Some(0), totalSites := Some(0), resultsFound := Some(0))
  }

  /** The session fields the read loop keeps in step with its tracker. */
  function Publish(s: Session, t: Tracker): Session {
    s.(progress := t.progress, currentSite := Some(t.shownSite),
       sitesChecked := Some(t.sitesChecked), totalSites := Some(t.totalSites),
       resultsFound := Some(t.resultsFound))
  }

  /** The session as pollers see it after the first `k` output lines. */
  function AfterLines(s: Session, lines: seq<LineInput>, k: nat): Session
    requires k <= |lines|
  {
    Publish(BeginRun(s), Run(InitialTracker(), lines[..k]))
  }

  /** After the process exits: a running session below 95 is raised to 95. */
  function FinishStream(s: Session): (r: Session)
    ensures r.status == s.status
    ensures s.status == Running ==> r.progress == (if s.progress < 95 then 95 else s.progress)
    ensures !(s.status == Running && s.progress < 95) ==> r == s
    ensures s.status == Running && s.progress < 95 ==> r == s.(progress := 95, currentSite := Some("Processing results..."))
  {
    if s.progress < 95 && s.status == Running then
      s.(progress := 95, currentSite := Some("Processing results..."))
    else s
  }

  function Fail(s: Session, message: string): Session {
    s.(status := Failed, error := Some(message))
  }

  function Complete(s: Session, results: seq<UserResult>, completedAt: string): Session {
    s.(results := results, status := Completed, progress := 100, completedAt := Some(completedAt))
  }

  /** Where the session ends up once the process has exited. */
  function Conclude(s: Session, returnCode: int, files: map<string, ReportFile>, completedAt: string): (r: Session)
    ensures IsTerminal(r.status)
    ensures r.status == Completed <==> returnCode == 0 && ProcessReports(s.usernames, files).Ok?
    ensures r.status == Completed ==>
              r.results == ProcessReports(s.usernames, files).value && r.progress == 100 && r.completedAt == Some(completedAt)
    ensures r.status == Failed ==> r.progress == s.progress && r.error.Some? && r.results == s.results
    ensures returnCode != 0 ==> r.error == Some("Maigret search failed with return code: " + IntToString(returnCode))
    ensures returnCode == 0 && ProcessReports(s.usernames, files).Err? ==>
              var e := ProcessReports(s.usernames, files).error;
              r.error == Some((if e.DecodeError? then "Failed to parse results: " else "Failed to process results: ") + e.reason)
    ensures r.id == s.id && r.usernames == s.usernames && r.options == s.options && r.createdAt == s.createdAt
  {
    if returnCode != 0 then Fail(s, "Maigret search failed with return code: " + IntToString(returnCode))
    else
      match ProcessReports(s.usernames, files)
      case Ok(results) => Complete(s, results, completedAt)
      case Err(DecodeError(reason)) => Fail(s, "Failed to parse results: " + reason)
      case Err(ProcessError(reason)) => Fail(s, "Failed to process results: " + reason)
  }

  /** The session at the moment the output stops. */
  function StreamEnd(s: Session, run: TaskRun): Session {
    AfterLines(s, run.lines, |run.lines|)
  }

  /** The whole search task for one session. */
  function PerformSearch(s: Session, run: TaskRun): (r: Session)
    ensures IsTerminal(r.status)
    ensures r.status == Completed <==> run.ending == Exited(0) && ProcessReports(s.usernames, run.files).Ok?
    ensures r.status == Completed ==>
              && r.progress == 100
              && |r.results| == |s.usernames|
              && (forall i :: 0 <= i < |s.usernames| ==> r.results[i].username == s.usernames[i])
              && r.completedAt == Some(run.completedAt)
    ensures r.status == Failed ==> r.progress <= 95 && r.error.Some? && r.results == s.results
    ensures run.ending == TimedOut ==> r.error == Some("Search timed out")
    ensures run.ending.Raised? ==> r.error == Some(run.ending.message)
    ensures run.ending.Exited? && run.ending.returnCode != 0 ==>
              r.error == Some("Maigret search failed with return code: " + IntToString(run.ending.returnCode))
    ensures r.id == s.id && r.usernames == s.usernames && r.options == s.options && r.createdAt == s.createdAt
  {
    var live := StreamEnd(s, run);
    RunProgressBounded(InitialTracker(), run.lines[..|run.lines|]);
    match run.ending
    case TimedOut => Fail(live, "Search timed out")
    case Raised(message) => Fail(live, message)
    case Exited(code) => Conclude(FinishStream(live), code, run.files, run.completedAt)
  }

  // ---------------------------------------------------------------------
  // What pollers can observe.

  /** The state the session holds after each group of the task's writes,
      in order: the new session, the task's opening state, the state after
      each output line, the state after the 95% bump when the process
      exited, and the final state. States written and overwritten within
      one group (progress 0 before progress 1, a line's partial updates)
      are not listed; the task does not yield between them. A poller sees
      some of the listed states (the read loop never suspends, so in one
      event loop it may see only the first and the last). */
  function Observed(s: Session, run: TaskRun): (trace: seq<Session>)
    ensures |trace| >= 3
    ensures trace[0] == s
    ensures trace[|trace| - 1] == PerformSearch(s, run)
  {
    var lineStates := seq(|run.lines|, k requires 0 <= k < |run.lines| => AfterLines(s, run.lines, k + 1));
    var closing := if run.ending.Exited? then [FinishStream(StreamEnd(s, run))] else [];
    [s, BeginRun(s)] + lineStates + closing + [PerformSearch(s, run)]
  }

  /** Along the states `Observed` lists, a new session's status only moves
      forward: pending, then running, then one terminal status at the end;
      progress stays at or below 95 until the end, and is 100 at the end
      exactly when the search completed. */
  lemma ObservedLifecycle(s: Session, run: TaskRun)
    requires s.status == Pending && s.progress <= 95
    ensures var trace := Observed(s, run);
            && trace[0].status == Pending
            && (forall i :: 0 < i < |trace| - 1 ==> trace[i].status == Running)
            && IsTerminal(trace[|trace| - 1].status)
            && (forall i, j :: 0 <= i <= j < |trace| ==> Rank(trace[i].status) <= Rank(trace[j].status))
            && (forall i :: 0 <= i < |trace| - 1 ==> trace[i].progress <= 95)
            && (trace[|trace| - 1].progress == 100 <==> trace[|trace| - 1].status == Completed)
  {
    var trace := Observed(s, run);
    var n := |run.lines|;
    forall k | 0 <= k <= n
      ensures AfterLines(s, run.lines, k).status == Running
      ensures AfterLines(s, run.lines, k).progress <= 95
    {
      RunProgressBounded(InitialTracker(), run.lines[..k]);
    }
    forall i | 0 < i < |trace| - 1
      ensures trace[i].status == Running && trace[i].progress <= 95
    {
      if 2 <= i < 2 + n {
        assert trace[i] == AfterLines(s, run.lines, i - 1);
      } else if i == 1 {
        assert trace[i] == BeginRun(s);
      } else {
        assert trace[i] == FinishStream(StreamEnd(s, run));
      }
    }
  }

  /** Along the output lines, pollers never see `resultsFound` go down,
      see it rise by at most one per line, and never see a non-zero
      `totalSites` change. */
  lemma LiveCountersMonotone(s: Session, lines: seq<LineInput>, i: nat, j: nat)
    requires i <= j <= |lines|
    ensures AfterLines(s, lines, i).resultsFound.value <= AfterLines(s, lines, j).resultsFound.value
    ensures AfterLines(s, lines, j).resultsFound.value <= AfterLines(s, lines, i).resultsFound.value + (j - i)
    ensures AfterLines(s, lines, i).totalSites.value != 0 ==>
              AfterLines(s, lines, j).totalSites == AfterLines(s, lines, i).totalSites
  {
    var ti := Run(InitialTracker(), lines[..i]);
    var tj := Run(InitialTracker(), lines[..j]);
    assert AfterLines(s, lines, i).resultsFound == Some(ti.resultsFound);
    assert AfterLines(s, lines, j).resultsFound == Some(tj.resultsFound);
    assert AfterLines(s, lines, i).totalSites == Some(ti.totalSites);
    assert AfterLines(s, lines, j).totalSites == Some(tj.totalSites);
    ResultsFoundMonotone(InitialTracker(), lines, i, j);
    TotalStable(InitialTracker(), lines, i, j);
  }

  /** Once some prefix of the lines has set the total, longer prefixes keep it. */
  lemma TotalStable(t: Tracker, lines: seq<LineInput>, i: nat, j: nat)
    requires i <= j <= |lines|
    ensures Run(t, lines[..i]).totalSites != 0 ==> Run(t, lines[..j]).totalSites == Run(t, lines[..i]).totalSites
  {
    assert lines[..j] == lines[..i] + lines[i..j];
    RunSplit(t, lines[..i], lines[i..j]);
    RunTotalFirstWriteWins(Run(t, lines[..i]), lines[i..j]);
  }

  lemma {:induction false} RunSplit(t: Tracker, a: seq<LineInput>, b: seq<LineInput>)
    ensures Run(t, a + b) == Run(Run(t, a), b)
    decreases |b|
  {
    if |b| == 0 {
      assert a + b == a;
    } else {
      var ab := a + b;
      assert ab[..|ab| - 1] == a + b[..|b| - 1];
      assert ab[|ab| - 1] == b[|b| - 1];
      RunSplit(t, a, b[..|b| - 1]);
    }
  }

  /** Results can be fetched for a session exactly when its search task
      completed; a failed search keeps answering 400. */
  lemma ResultsAfterSearch(store: Store, id: string, run: TaskRun)
    requires id in store
    ensures var store' := store[id := PerformSearch(store[id], run)];
            && (GetSearchResults(store', id).Ok?
                <==> run.ending == Exited(0) && ProcessReports(store[id].usernames, run.files).Ok?)
            && (GetSearchResults(store', id).Err? ==> GetSearchResults(store', id) == Err(NotCompleted))
  {
  }
}

=== FILE: wrappers.dfy ===
/** Failure-carrying wrappers used throughout the model: Python's `None`
    and raised exceptions become explicit values. */
module Wrappers {

  /** A value that may be absent (Python `None`, or a missing dict key). */
  datatype Option<+T> = None | Some(value: T) {

    /** The wrapped value, or `default` when absent (Python `d.get(k, default)`). */
    function GetOr(default: T): T {
      match this
      case Some(v) => v
      case None => default
    }
  }

  /** Either a value or the error that stopped the computation. */
  datatype Result<+R, +E> = Ok(value: R) | Err(error: E) {

    predicate IsFailure() {
      Err?
    }

    function PropagateFailure<U>(): Result<U, E>
      requires Err?
    {
      Err(error)
    }

    function Extract(): R
      requires Ok?
    {
      value
    }
  }
}
